=== FILE: README.md ===
# Melee damage calculator, modelled in Dafny

This project models the damage pipeline of the combat-calculator mod
(`DamageCalculator`). When a living entity hurts another, the mod replaces
the engine's damage with the result of a fixed chain of steps:

1. base weapon damage, times an attack-speed tier factor;
2. plus half the attacker's attack-damage attribute above 1.0;
3. plus 0.8 of the enchantment bonus (sharpness, smite, bane of arthropods);
4. times 1.35 on a critical hit;
5. times a positional factor over the angle between the attacker's bearing and the target's yaw;
6. times an environmental factor (rain, water, altitude, heat, darkness);
7. times a weapon-durability factor;
8. times a hunger and exhaustion factor;
9. plus 0.6 of the fire-aspect bonus;
10. times a status-effect factor;
11. then the armor formula, then a random variance;
12. then clamped to at most the target's maximum health and at least 0.45.

Each modifier is a pure function of an immutable snapshot: `Actor`, `Weapon`,
`World`, `Scene` and `Hit` in `snapshot.dfy`. The two random draws are explicit
parameters in [0, 1). The snapshot includes the engine's atan2 bearing and the
target yaw in radians.

The modules are:

- `RealMath`: `Math.abs`, `Math.min`, `Math.max`, `Mth.clamp` and small order lemmas.
- `Snapshot`: the data model.
- `Angles`: the angle-normalisation loop and the positional factor.
- `Text`: `String.contains`.
- `Modifiers`: the independent modifier functions and the variance.
- `StatusEffects`: the status-effect factor, as a fold over a list of stages.
- `Armor`: the armor formula.
- `Pipeline`: calculateDamage, calculateDPS, the breakdown record and the
  hurt-event guard.

`Collect`, `CalculateDamage`, `GetDamageBreakdown` and `OnLivingHurt` are the
source as written: its positional factor, its status factor and its armor
formula. Three of those pieces misbehave (see "Findings"), and each has a
corrected version next to it: `PositionalFactorCorrected`, `StatusFactor` and
`ArmorReduction`. `CalculateDamageCorrected` runs the same chain with the three
corrected pieces. The breakdown has a corrected version too,
`ConsistentBreakdown`.

As an example of the difference, take a quiet, bare-handed hit on an
unarmoured target with the middle variance draw:

- In the source's 0.95 tier, which is a flank, the source gives 0.96805 (`Pipeline.QuietBareHandedHit`).
- Within 45 degrees of the target's front, the corrected chain gives 0.95 (`Pipeline.QuietBareHandedHitCorrected`).
- Straight in front, the source puts the hit in its 1.08 tier and gives 1.103328, while the corrected chain gives 0.95 (`Pipeline.QuietHeadOnHit`).

## Model

All source cells refer to `src/main/java/com/combat/calculator/util/DamageCalculator.java`.

| member | source | states |
|---|---|---|
| Angles.Wrap | src/main/java/com/combat/calculator/util/DamageCalculator.java:303-305 | Repeatedly subtracting a full turn while above π ends at most at π, strictly above −π when the input was, and leaves an input already at most π unchanged |
| Angles.WrapIsCanonical | src/main/java/com/combat/calculator/util/DamageCalculator.java:303-305 | The loop's result is the unique representative d − 2πk in (−π, π] |
| Angles.AngleDifference | src/main/java/com/combat/calculator/util/DamageCalculator.java:298-306 | The folded angle between the attacker's bearing and the target's yaw always lies in [0, π] |
| Angles.NormaliseAngle | src/main/java/com/combat/calculator/util/DamageCalculator.java:300-306 | In exact reals the source's while loop terminates and yields the folded angle, which lies in [0, π] |
| Angles.PositionalFactor | src/main/java/com/combat/calculator/util/DamageCalculator.java:308-319 | 1.25 iff the folded angle is below π/4, 1.08 iff it is in [π/4, 3π/4), 0.95 iff it is at least 3π/4 |
| Angles.PositionalFactorMonotone | src/main/java/com/combat/calculator/util/DamageCalculator.java:308-319 | A smaller folded angle never gets a smaller factor |
| Angles.PositionalExamples | src/main/java/com/combat/calculator/util/DamageCalculator.java:308-319 | Angle 0 gives 1.25, π/2 gives 1.08, π gives 0.95, exactly π/4 falls in the 1.08 band, and bearing 0 against yaw 3π/4 gives 0.95 |
| Angles.AngleDifferencePeriodic | src/main/java/com/combat/calculator/util/DamageCalculator.java:298-306 | Adding a full turn to the bearing does not change the folded angle |
| Angles.PositionalTiersMisplaced | src/main/java/com/combat/calculator/util/DamageCalculator.java:297-319 | As written, an attacker straight behind or straight in front of the target gets 1.08, the flank at the yaw's own bearing gets 1.25 and the opposite flank 0.95 |
| Angles.PositionalFactorCorrected | src/main/java/com/combat/calculator/util/DamageCalculator.java:308-319 | The corrected tiers over the angle from the target's back: 1.25 below π/4, 1.08 up to 3π/4, 0.95 beyond, each an iff |
| Angles.PositionalFactorCorrectedFollowsFacing | src/main/java/com/combat/calculator/util/DamageCalculator.java:308-319 | Corrected, straight behind gives 1.25, straight in front 0.95 and either flank 1.08, for every yaw |
| Text.ContainsIffOccurs | src/main/java/com/combat/calculator/util/DamageCalculator.java:441-443 | The substring test is true exactly when the pattern occurs at some index of the name |
| Text.ContainsAt | src/main/java/com/combat/calculator/util/DamageCalculator.java:441-443 | An occurrence at any index makes the substring test true |
| Modifiers.BaseDamage | src/main/java/com/combat/calculator/util/DamageCalculator.java:195-208 | Always at least 1.0; exactly 1.0 bare-handed; the item's attack damage when that is at least 1.0, and 1.0 when it is below |
| Modifiers.BaseDamageMonotone | src/main/java/com/combat/calculator/util/DamageCalculator.java:195-208 | On the same item, a larger attack-damage modifier never gives a smaller base damage, and a strictly larger one above 1.0 gives a strictly larger one |
| Modifiers.SpeedFactor | src/main/java/com/combat/calculator/util/DamageCalculator.java:213-236 | 1.0 bare-handed; for an item 1.15 iff speed + 4 is at most 1.0, 0.85 iff it is at least 2.5, 1.0 iff strictly between |
| Modifiers.SpeedTierByModifier | src/main/java/com/combat/calculator/util/DamageCalculator.java:218-235 | For an item, the slow tier holds iff its speed modifier is at most −3, the fast tier iff it is at least −1.5, the neutral tier iff strictly between |
| Modifiers.SpeedFactorMonotone | src/main/java/com/combat/calculator/util/DamageCalculator.java:225-235 | Among items, a slower weapon never gets a smaller speed factor |
| Modifiers.AttributeBonus | src/main/java/com/combat/calculator/util/DamageCalculator.java:241-244 | Zero exactly when the attack-damage attribute is 1.0; at least −1 for a non-negative attribute |
| Modifiers.AttributeBonusShifts | src/main/java/com/combat/calculator/util/DamageCalculator.java:241-244 | Raising the attack-damage attribute by some amount raises the bonus by exactly that amount |
| Modifiers.MobCriticalOnLowDraws | src/main/java/com/combat/calculator/util/DamageCalculator.java:286-288 | For a mob, a lower draw never loses a critical hit; draw 0 always crits and the middle draw never does |
| Modifiers.PlayerCriticalIgnoresDraw | src/main/java/com/combat/calculator/util/DamageCalculator.java:277-285 | A player's critical decision never depends on the random draw |
| Modifiers.PlayerCondition | src/main/java/com/combat/calculator/util/DamageCalculator.java:389-411 | 1.0 for non-players; always within [0.85·0.93, 1]; exactly 1.0 iff non-player or food at least 12 and exhaustion at most 3; without exhaustion, 0.85 iff food below 6 and 0.95 iff food in [6, 12) |
| Modifiers.ExhaustionCostsSevenPercent | src/main/java/com/combat/calculator/util/DamageCalculator.java:405-408 | For a player, exhaustion above 3 gives exactly 0.93 times the factor at an exhaustion of at most 3 |
| Modifiers.PlayerConditionMonotoneInFood | src/main/java/com/combat/calculator/util/DamageCalculator.java:396-402 | A better-fed player never gets a smaller factor |
| Modifiers.EnvironmentalFactor | src/main/java/com/combat/calculator/util/DamageCalculator.java:327-360 | Between the product of the four penalties and 1.05; exactly 1.0 iff no condition holds; above 1.0 iff only the altitude bonus applies |
| Modifiers.RainCostsFivePercent | src/main/java/com/combat/calculator/util/DamageCalculator.java:332-335 | Under open sky, rain multiplies the factor by exactly 0.95, everything else unchanged |
| Modifiers.WaterCostsFifteenPercent | src/main/java/com/combat/calculator/util/DamageCalculator.java:337-340 | Without water breathing, being in water multiplies the factor by exactly 0.85 |
| Modifiers.AltitudeGainsFivePercent | src/main/java/com/combat/calculator/util/DamageCalculator.java:342-345 | Moving from block Y at most 128 to above it multiplies the factor by exactly 1.05 |
| Modifiers.HeatCostsFivePercent | src/main/java/com/combat/calculator/util/DamageCalculator.java:347-351 | A biome base temperature above 1.5 instead of at most 1.5 multiplies the factor by exactly 0.95 |
| Modifiers.DarknessCostsFivePercent | src/main/java/com/combat/calculator/util/DamageCalculator.java:353-357 | Without night vision, block light below 4 instead of at least 4 multiplies the factor by exactly 0.95 |
| Modifiers.ConditionBand | src/main/java/com/combat/calculator/util/DamageCalculator.java:375-383 | 0.85 iff the remaining fraction is below 0.10, 0.92 iff in [0.10, 0.25), 0.97 iff in [0.25, 0.50), 1.0 iff at least 0.50 |
| Modifiers.ConditionBandMonotone | src/main/java/com/combat/calculator/util/DamageCalculator.java:375-383 | More remaining durability never gives a smaller factor |
| Modifiers.WeaponCondition | src/main/java/com/combat/calculator/util/DamageCalculator.java:365-384 | 1.0 for bare hands or an item that does not wear down; otherwise the band of 1 − wear/max; always within [0.85, 1] |
| Modifiers.WeaponConditionMonotoneInWear | src/main/java/com/combat/calculator/util/DamageCalculator.java:370-383 | Further wear on the same item never raises its factor |
| Modifiers.ConditionBandExamples | src/main/java/com/combat/calculator/util/DamageCalculator.java:375-383 | Fractions 0.05, 0.20, 0.40 and 0.80 give 0.85, 0.92, 0.97 and 1.0 |
| Modifiers.SharpnessTerm | src/main/java/com/combat/calculator/util/DamageCalculator.java:252-256 | Never negative; 0.5 + 0.5·L at a positive level L, 0 otherwise |
| Modifiers.SlayingTerm | src/main/java/com/combat/calculator/util/DamageCalculator.java:258-268 | Never negative; 2.5·L at a positive level L against the matching mob type, 0 at a non-positive level or a non-matching type |
| Modifiers.EnchantmentBonus | src/main/java/com/combat/calculator/util/DamageCalculator.java:249-271 | Never negative; zero bare-handed; sharpness plus smite against undead, sharpness plus bane against arthropods, sharpness alone otherwise |
| Modifiers.EnchantmentBonusMonotone | src/main/java/com/combat/calculator/util/DamageCalculator.java:249-271 | Raising any one enchantment level on an item never lowers the bonus |
| Modifiers.SharpnessIndependentOfTarget | src/main/java/com/combat/calculator/util/DamageCalculator.java:252-256 | The bonus is the sharpness term plus the bonus of the same weapon without sharpness, so sharpness adds the same amount against every target |
| Modifiers.EnchantmentExample | src/main/java/com/combat/calculator/util/DamageCalculator.java:249-271 | Sharpness 3 with smite 5 and bane 5 against a plain target gives only the 2.0 of sharpness |
| Modifiers.VulnerableToFireIff | src/main/java/com/combat/calculator/util/DamageCalculator.java:437-444 | Vulnerable exactly when undead or the type name contains "creeper", "ice" or "snow" at some index |
| Modifiers.ResistantToFireIff | src/main/java/com/combat/calculator/util/DamageCalculator.java:449-456 | Resistant exactly when fire-immune, under fire resistance, or the type name contains "blaze", "magma" or "ghast" at some index |
| Modifiers.ElementalBonus | src/main/java/com/combat/calculator/util/DamageCalculator.java:416-432 | Never negative; zero when fire aspect is at most 0; otherwise 0.5·L·1.1 if vulnerable, else 0.5·L·0.9 if resistant, else 0.5·L |
| Modifiers.ElementalBonusMonotone | src/main/java/com/combat/calculator/util/DamageCalculator.java:416-432 | A higher fire-aspect level on an item never lowers the fire bonus |
| Modifiers.SnowGolemTakesFireBonus | src/main/java/com/combat/calculator/util/DamageCalculator.java:437-456 | A fire-immune snow golem hit with fire aspect 2 takes 0.5·2·1.1 = 1.1: the name makes it vulnerable, and vulnerability wins over immunity |
| Modifiers.VarianceMultiplier | src/main/java/com/combat/calculator/util/DamageCalculator.java:530-531 | The multiplier lies in [0.85, 1.15) and is exactly 1.0 at the middle draw |
| Modifiers.VarianceMultiplierBijective | src/main/java/com/combat/calculator/util/DamageCalculator.java:530-531 | Every multiplier in [0.85, 1.15) comes from exactly one draw |
| Modifiers.ApplyVariance | src/main/java/com/combat/calculator/util/DamageCalculator.java:528-533 | The middle draw leaves the damage unchanged |
| Modifiers.VarianceBounds | src/main/java/com/combat/calculator/util/DamageCalculator.java:528-533 | A non-negative damage ends within 15% of itself either way |
| Modifiers.VarianceMonotone | src/main/java/com/combat/calculator/util/DamageCalculator.java:528-533 | For a fixed draw the variance preserves the order of two damages |
| StatusEffects.RunClamped | src/main/java/com/combat/calculator/util/DamageCalculator.java:462-506 | The floored fold keeps a non-negative running modifier non-negative |
| StatusEffects.StatusFactorAsWritten | src/main/java/com/combat/calculator/util/DamageCalculator.java:461-509 | At least 0.45, and exactly 1.0 when none of the seven listed effects is active |
| StatusEffects.StatusFactor | src/main/java/com/combat/calculator/util/DamageCalculator.java:461-509 | The corrected factor: at least 0.45, and exactly 1.0 when none of the seven listed effects is active |
| StatusEffects.StatusClosedForm | src/main/java/com/combat/calculator/util/DamageCalculator.java:465-508 | With all seven effects active the factor is the source's left-to-right expression: strength, weakness, mining fatigue, haste, resistance, wither, poison |
| StatusEffects.StatusStrengthWeaknessPoison | src/main/java/com/combat/calculator/util/DamageCalculator.java:465-508 | With only strength and weakness on the attacker and poison on the target, the factor is the floored (1 + 0.15(s+1) − 0.25(w+1))·1.05 |
| StatusEffects.StatusFactorFormula | src/main/java/com/combat/calculator/util/DamageCalculator.java:461-509 | For every combination of the seven effects, the as-written factor is max(0.45, ((1 + strength term − weakness term)·mining-fatigue scale + haste term)·resistance scale·1.1 if withering·1.05 if poisoned), with each absent effect replaced by 0 for a term and 1 for a factor |
| StatusEffects.AttackerFormula | src/main/java/com/combat/calculator/util/DamageCalculator.java:464-489 | The attacker's four effects, applied in source order, give (1 + strength term − weakness term)·mining-fatigue scale + haste term |
| StatusEffects.TargetFormula | src/main/java/com/combat/calculator/util/DamageCalculator.java:491-506 | The target's resistance, wither and poison multiply the running modifier by their factors, 1 for each absent effect |
| StatusEffects.AttackerPenaltyNeverRaises | src/main/java/com/combat/calculator/util/DamageCalculator.java:471-482 | With the floor, weakness or mining fatigue never raises the factor, and a higher amplifier never raises it either |
| StatusEffects.ResistanceNeverRaisesFactor | src/main/java/com/combat/calculator/util/DamageCalculator.java:492-496 | With the floor, the target's resistance never raises the factor, and a higher amplifier never raises it either |
| StatusEffects.ResistanceRaisesFactorAsWritten | src/main/java/com/combat/calculator/util/DamageCalculator.java:471-496 | As written, weakness 4 alone gives 0.45 but adding target resistance 255 gives 9.35; the corrected factor stays at 0.45 |
| StatusEffects.FloorChangesWeaknessThenHaste | src/main/java/com/combat/calculator/util/DamageCalculator.java:471-489 | Weakness 4 then haste 255 gives 12.55 as written and 12.8 with the floor |
| StatusEffects.StatusFactorsAgree | src/main/java/com/combat/calculator/util/DamageCalculator.java:461-509 | For amplifiers the game hands out, the corrected factor equals the source's factor |
| Armor.ToughnessDivisor | src/main/java/com/combat/calculator/util/DamageCalculator.java:519 | The toughness divisor is at least 2 |
| Armor.AbsorbedAsWritten | src/main/java/com/combat/calculator/util/DamageCalculator.java:520 | The source's absorbed term is at most 0.2·armor, and equals 0.2·armor exactly when D/f is at most 0.8·armor |
| Armor.Absorbed | src/main/java/com/combat/calculator/util/DamageCalculator.java:518-520 | The game's absorbed term is never negative; up to 100 armor it lies in [0.2·armor, 20] and is never below the source's term; it is A − D/f whenever that lies in [0.2·armor, 20] |
| Armor.ArmorReductionAsWritten | src/main/java/com/combat/calculator/util/DamageCalculator.java:514-523 | For D ≥ 0 the result is at least D·(1 − armor/125); with zero armor a positive D comes out strictly larger |
| Armor.ArmorReduction | src/main/java/com/combat/calculator/util/DamageCalculator.java:514-523 | For D ≥ 0 the result is at most D, and up to 100 armor between 0.2·D and D·(1 − armor/125); zero armor leaves D unchanged |
| Armor.AgreeIff | src/main/java/com/combat/calculator/util/DamageCalculator.java:519-522 | For positive damage below 100 armor, the two versions agree exactly when D/f equals 0.8·armor |
| Armor.AsWrittenLetsMoreThrough | src/main/java/com/combat/calculator/util/DamageCalculator.java:519-522 | For D ≥ 0 and up to 100 armor, the source's formula never lets less damage through than the game's |
| Armor.ArmorMonotoneInArmor | src/main/java/com/combat/calculator/util/DamageCalculator.java:519-522 | For D ≥ 0, more armor never lets more damage through: as written always, the game's formula up to 100 armor |
| Armor.ArmorMonotoneInToughness | src/main/java/com/combat/calculator/util/DamageCalculator.java:519-522 | For D ≥ 0, more toughness never lets more damage through: as written always, the game's formula up to 100 armor |
| Armor.ArmorMonotoneInDamage | src/main/java/com/combat/calculator/util/DamageCalculator.java:519-522 | More damage in never means less out: as written up to 125 armor, the game's formula up to 100 |
| Armor.ZeroArmorRaisesDamageAsWritten | src/main/java/com/combat/calculator/util/DamageCalculator.java:519-522 | As written, zero armor turns 10 into 12 and 0.95 into 0.96805; the game's formula keeps 10 |
| Armor.TwentyArmorExample | src/main/java/com/combat/calculator/util/DamageCalculator.java:519-522 | 20 armor without toughness turns 10 into 8.4 as written and into 4.0 with the game's formula |
| Armor.HeavyHitExample | src/main/java/com/combat/calculator/util/DamageCalculator.java:519-522 | 10 armor without toughness turns 40 into 56 as written and into 36.8 with the game's formula |
| Pipeline.Collect | src/main/java/com/combat/calculator/util/DamageCalculator.java:93-137 | Every collected modifier lies in the range its function guarantees; bare hands give base 1, speed factor 1, condition 1 and no enchantment or fire bonus |
| Pipeline.CollectCorrected | src/main/java/com/combat/calculator/util/DamageCalculator.java:116-137 | The corrected modifiers lie in the same ranges and differ from the source's only in the positional and status factors |
| Pipeline.ClampToHealth | src/main/java/com/combat/calculator/util/DamageCalculator.java:144-146 | At least 0.45; at most the maximum health when that is at least 0.45; exactly 0.45 below it; untouched when already in range |
| Pipeline.CalculateDamage | src/main/java/com/combat/calculator/util/DamageCalculator.java:93-147 | As written, the damage is at least 0.45, at most the maximum health when that is at least 0.45, and exactly 0.45 when the maximum health is below 0.45 |
| Pipeline.CalculateDamageCorrected | src/main/java/com/combat/calculator/util/DamageCalculator.java:93-147 | The corrected chain keeps the same three clamp facts, and an unarmoured target hit with the middle draw takes exactly the pre-armor damage when that is in range |
| Pipeline.CrittedMonotone | src/main/java/com/combat/calculator/util/DamageCalculator.java:99-113 | Steps 1-5 stay non-negative and keep the order of ordered base damages, attribute and enchantment bonuses and critical decisions |
| Pipeline.PreArmorMonotone | src/main/java/com/combat/calculator/util/DamageCalculator.java:99-137 | Raising the base damage, a bonus, the critical decision, the positional factor or the status factor never lowers the pre-armor damage, which stays non-negative |
| Pipeline.FinishMonotone | src/main/java/com/combat/calculator/util/DamageCalculator.java:139-146 | Armor, variance and the clamps preserve the order of two non-negative pre-armor damages: as written up to 125 armor, corrected up to 100 |
| Pipeline.CriticalNeverLowersDamage | src/main/java/com/combat/calculator/util/DamageCalculator.java:110-113 | For a mob attacker, a critical roll never gives less damage than a missed one, in both chains |
| Pipeline.SmallerAngleNeverLowersDamage | src/main/java/com/combat/calculator/util/DamageCalculator.java:116-117 | As written, a smaller angle between bearing and target yaw never gives less damage |
| Pipeline.BehindNeverLowersDamage | src/main/java/com/combat/calculator/util/DamageCalculator.java:116-117 | Corrected, standing closer to the target's back never gives less damage |
| Pipeline.ResistanceNeverRaisesDamage | src/main/java/com/combat/calculator/util/DamageCalculator.java:136-137 | Corrected, a stronger resistance effect on the target never raises the damage, and neither does having one |
| Pipeline.WeaponDamageNeverLowersDamage | src/main/java/com/combat/calculator/util/DamageCalculator.java:95-99 | A larger attack-damage modifier on the weapon never lowers the damage, in both chains |
| Pipeline.AttackDamageNeverLowersDamage | src/main/java/com/combat/calculator/util/DamageCalculator.java:101-103 | A larger attack-damage attribute on the attacker never lowers the damage, in both chains |
| Pipeline.NeutralModifiers | src/main/java/com/combat/calculator/util/DamageCalculator.java:93-137 | In quiet conditions every modifier is neutral except the 0.95 positional tier |
| Pipeline.QuietBareHandedHit | src/main/java/com/combat/calculator/util/DamageCalculator.java:93-147 | As written, a quiet bare-handed hit in the 0.95 tier on an unarmoured target with the middle draw is 0.95 before armor and 0.96805 after |
| Pipeline.QuietBareHandedHitCorrected | src/main/java/com/combat/calculator/util/DamageCalculator.java:93-147 | Corrected, the same quiet hit within 45 degrees of the target's front deals exactly 0.95 |
| Pipeline.QuietHeadOnHit | src/main/java/com/combat/calculator/util/DamageCalculator.java:93-147 | The quiet hit straight in front of the target is 1.08 before armor and 1.103328 after as written, and exactly 0.95 corrected |
| Pipeline.CalculateDps | src/main/java/com/combat/calculator/util/DamageCalculator.java:538-551 | Bare hands give 4.0; an item with attack damage at most 1.0 gives its raw attack speed |
| Pipeline.DpsSlowTier | src/main/java/com/combat/calculator/util/DamageCalculator.java:538-551 | For an item, the slow speed tier (factor 1.15) holds iff the DPS estimate is at most the base damage |
| Pipeline.DpsFastTier | src/main/java/com/combat/calculator/util/DamageCalculator.java:538-551 | For an item, the fast speed tier (factor 0.85) holds iff the DPS estimate is at least 2.5 times the base damage |
| Pipeline.BreakdownPreArmorGap | src/main/java/com/combat/calculator/util/DamageCalculator.java:571-575 | The breakdown's pre-armor damage exceeds the pipeline's by the dropped bonus weights and by the elemental bonus passing through the critical and condition factors |
| Pipeline.BreakdownMatchesWithoutBonuses | src/main/java/com/combat/calculator/util/DamageCalculator.java:571-575 | With no attribute, enchantment or fire bonus the breakdown's total before armor is the pipeline's |
| Pipeline.GetDamageBreakdown | src/main/java/com/combat/calculator/util/DamageCalculator.java:556-581 | The record holds the source's modifiers; with no attribute, enchantment or fire bonus its final damage is the pipeline's value before the clamps |
| Pipeline.BreakdownAgreesWithoutBonuses | src/main/java/com/combat/calculator/util/DamageCalculator.java:556-581 | Without bonuses, and with the clamps inactive, the breakdown's final damage equals calculateDamage for the same draws |
| Pipeline.BreakdownDisagreesWithPipeline | src/main/java/com/combat/calculator/util/DamageCalculator.java:571-575 | A bare-handed mob with attack damage 3 hitting in the 1.08 tier: the breakdown has 3·1.08 before armor where the pipeline has 2·1.08 |
| Pipeline.CorrectedBreakdownIsPreArmor | src/main/java/com/combat/calculator/util/DamageCalculator.java:571-575 | The breakdown formula with the weights restored and the fire bonus added after the condition factors equals the pipeline's step-by-step pre-armor damage |
| Pipeline.ConsistentBreakdown | src/main/java/com/combat/calculator/util/DamageCalculator.java:556-581 | The corrected breakdown holds the same modifiers as getDamageBreakdown, and clamping its final damage gives calculateDamage for the same draws |
| Pipeline.OnLivingHurt | src/main/java/com/combat/calculator/util/DamageCalculator.java:54-79 | A non-living source or a non-positive amount leaves the amount unchanged; otherwise it becomes a recalculated damage of at least 0.45, at most the target's maximum health when that is at least 0.45 |
| Pipeline.HandlerIgnoresAmountAndMobWeapons | src/main/java/com/combat/calculator/util/DamageCalculator.java:69-79 | A recalculated hit does not depend on the proposed amount; the handler passes bare hands for a mob, so a mob's main-hand field does not change the result (its held item reaches the damage only through the attack-damage attribute the engine supplies) |

## Left out

- IEEE float rounding and the `(float)` casts. Everything is computed in exact reals, so no result is claimed to be bit-exact.
- `Math.atan2` and `Math.toRadians` (lines 298-299). The bearing and the target yaw in radians are inputs.
- π is the decimal value of `Math.PI`. The termination measures of `Angles.Wrap` and `Angles.NormaliseAngle` rely on its value, since they need a full turn to be at least 1. The other proofs only compare angles with fractions of it.
- Angles.NormaliseAngle: termination holds in exact reals only. In doubles, once the angle difference reaches 2^56, subtracting 2π rounds back to the same value and the source's loop never ends. The model does not capture that.
- The look direction of a yaw t is taken to be (−sin t, cos t) in (x, z), which is the engine's convention. `Angles.FacingBearing` and `Angles.BackBearing` rest on it.
- Engine lookups are snapshot fields whose values the engine supplies. These cover attribute-modifier sums, enchantment levels, mob type, fire immunity, active effects and their amplifiers, biome temperature, block light, sky visibility and the entity type's printed name.
- The attack-damage attribute (line 242) is a snapshot field independent of the other fields. In the engine its value already includes the attribute modifiers of the main-hand item and of Strength and Weakness. A player's weapon therefore counts in both the base damage (lines 195-208) and the attribute bonus (lines 241-244), a mob's held item counts only through the attribute, and Strength and Weakness act on both the attribute and the status factor. The model does not derive the attribute from the item or the effects.
- `RandomSource` is replaced by explicit draws: one for a mob's critical roll and one for the variance.
- The breakdown takes its own draws, because the source draws afresh there.
- `handleSpecialDamageEffects` (lines 152-190) is not modelled. It only spawns particles and sets targets on fire, and it does not feed back into the damage.
- The creative-mode breakdown call inside `onLivingHurt` (lines 81-84) is not modelled. Its result is discarded.
- `DamageBreakdown.toString` (lines 600-621) is not modelled. It is string formatting.
- The rest of the mod is not part of this model: the bootstrap, auto-replanting, instant path creation and faster leaf decay. These are event handlers that mutate the world.
- Armor and armor toughness are typed non-negative, which is what the engine's attribute ranges guarantee. The toughness divisor 2 + T/4 then never vanishes.
- Modifiers.WeaponCondition: an item reported damageable with maximum durability 0 is treated as not wearing down and gets 1.0. The engine only reports items with a positive maximum as damageable. In floats the source would divide by zero there.
- Modifiers.ApplyVariance: its contract states only the middle-draw identity. The 15% bounds are stated by `Modifiers.VarianceBounds`, so callers do not carry nonlinear facts they do not need.
- Amplifiers are unbounded integers. The game keeps them in 0..255, which is exactly what `StatusEffects.ResistanceRaisesFactorAsWritten` uses.
- The damage-monotonicity lemmas assume the attacker's attack damage is non-negative. Their as-written halves hold up to 125 armor and their corrected halves up to 100 armor. Beyond those bounds the armor factor can turn negative, or the game's clamp has its lower bound above its upper one.
- Armor.ArmorReduction: below 100 armor it states the game's bounds. Above 100 armor (never reached in the game, where armor is capped at 30) it promises only that the result is at most D.

## Findings

| source | as written | input that shows it | evidently intended | confidence | as-written member | corrected member |
|---|---|---|---|---|---|---|
| src/main/java/com/combat/calculator/util/DamageCalculator.java:518-522 | f1 = min(A − D/f, 0.2·A) bounds the absorbed term above by 0.2·A and not below at all, so when D/f exceeds the armor the "reduction" multiplies the damage up | armor 0, toughness 0, damage 10 gives 12; armor 10, damage 40 gives 56 | the game's own formula, named in the comment at line 518: f1 = clamp(A − D/f, 0.2·A, 20). Then zero armor leaves the damage unchanged, armor 10 turns 40 into 36.8, and armor 20 turns 10 into 4.0 where the source gives 8.4 | high that armor adds damage, medium that the game's clamp is the intent; not executed | Armor.ZeroArmorRaisesDamageAsWritten | Armor.ArmorReduction |
| src/main/java/com/combat/calculator/util/DamageCalculator.java:478-496 | the mining-fatigue and resistance factors 1 − 0.1(n+1) and 1 − 0.15(n+1) go negative, and two negatives multiply into a bonus | attacker weakness amplifier 4 and target resistance amplifier 255 give 9.35, where weakness alone gives 0.45 | a penalty effect never raises damage. The model keeps the running modifier non-negative after every stage. That floor also changes weakness 4 then haste 255 from 12.55 to 12.8; for the amplifiers the game hands out both versions agree | medium; not executed | StatusEffects.ResistanceRaisesFactorAsWritten | StatusEffects.ResistanceNeverRaisesFactor |
| src/main/java/com/combat/calculator/util/DamageCalculator.java:571-578 | the breakdown adds the attribute, enchantment and fire bonuses unweighted and before the critical multiplier, and skips both clamps | a bare-handed mob with attack damage 3 in the 1.08 tier: 3·1.08 before armor in the breakdown, 2·1.08 in calculateDamage | the breakdown reports the damage calculateDamage deals for the same draws | medium; not executed | Pipeline.BreakdownDisagreesWithPipeline | Pipeline.ConsistentBreakdown |
| src/main/java/com/combat/calculator/util/DamageCalculator.java:297-319 | the atan2 bearing of the attacker is compared with the yaw itself, but a target with yaw t looks along bearing t + π/2, so the tiers sit a quarter turn off | target yaw 0: an attacker straight behind it (bearing −π/2) gets 1.08, one straight in front (bearing π/2) gets 1.08, one at bearing 0 (a flank) gets 1.25 | 1.25 within 45 degrees of the target's back, as the comment at line 308 says, 0.95 within 45 degrees of its front | medium; not executed | Angles.PositionalTiersMisplaced | Angles.PositionalFactorCorrected |

=== FILE: angles.dfy ===
/**
  The positional modifier: the angle between the attacker's atan2 bearing
  (seen from the target) and the target's yaw, folded into [0, pi], and the
  three tiers over it: 1.25 below pi/4, 1.08 up to 3pi/4, 0.95 beyond.

  The engine's yaw is not an atan2 bearing: a target with yaw t looks along
  (-sin t, cos t) in (x, z), whose bearing is t + pi/2. So an angle of 0 puts
  the attacker square to one of the target's flanks, not at its back.
  PositionalFactor keeps the source's comparison; PositionalFactorCorrected
  compares the bearing with that of the target's back, t - pi/2.
 */
module Angles {
  import opened RealMath

  /** java.lang.Math.PI, the double nearest to pi. */
  const PI: real := 3.141592653589793

  const BACKSTAB_MULTIPLIER: real := 1.25
  const SIDE_MULTIPLIER: real := 1.08
  const FRONTAL_ATTACK_PENALTY: real := 0.95

  /**
    The source's normalisation loop as a recursive function: subtract a full
    turn while the angle exceeds pi.
   */
  function Wrap(d: real): (r: real)
    ensures r <= PI
    ensures d > -PI ==> -PI < r
    ensures d <= PI ==> r == d
    decreases if d > PI then (d - PI).Floor + 1 else 0
  {
    if d > PI then Wrap(d - 2.0 * PI) else d
  }

  /** Wrap lands on the one representative of d modulo full turns that lies in (-pi, pi]. */
  lemma {:induction false} WrapIsCanonical(d: real, k: nat)
    requires -PI < d - 2.0 * PI * k as real <= PI
    ensures Wrap(d) == d - 2.0 * PI * k as real
    decreases k
  {
    if k > 0 {
      WrapIsCanonical(d - 2.0 * PI, k - 1);
    }
  }

  /** The folded angle between the attacker's bearing and the target's yaw. */
  function AngleDifference(bearing: real, targetYaw: real): (angle: real)
    ensures 0.0 <= angle <= PI
  {
    Abs(Wrap(Abs(bearing - targetYaw)))
  }

  /** The source's loop itself; it terminates and agrees with AngleDifference. */
  method NormaliseAngle(bearing: real, targetYaw: real) returns (angle: real)
    ensures angle == AngleDifference(bearing, targetYaw)
    ensures 0.0 <= angle <= PI
  {
    var diff := Abs(bearing - targetYaw);
    ghost var start := diff;
    while diff > PI
      invariant Wrap(diff) == Wrap(start)
      decreases (diff - PI).Floor
    {
      diff := diff - 2.0 * PI;
    }
    angle := Abs(diff);
  }

  /** getPositionalModifier: 1.25 below pi/4, 1.08 from pi/4 up to 3pi/4, 0.95 from 3pi/4 on. */
  function PositionalFactor(bearing: real, targetYaw: real): (factor: real)
    ensures factor == BACKSTAB_MULTIPLIER <==> AngleDifference(bearing, targetYaw) < PI / 4.0
    ensures factor == SIDE_MULTIPLIER
        <==> PI / 4.0 <= AngleDifference(bearing, targetYaw) < 3.0 * PI / 4.0
    ensures factor == FRONTAL_ATTACK_PENALTY <==> AngleDifference(bearing, targetYaw) >= 3.0 * PI / 4.0
  {
    var angle := AngleDifference(bearing, targetYaw);
    if angle < PI / 4.0 then BACKSTAB_MULTIPLIER
    else if angle < 3.0 * PI / 4.0 then SIDE_MULTIPLIER
    else FRONTAL_ATTACK_PENALTY
  }

  /** A smaller folded angle never gets a smaller factor. */
  lemma PositionalFactorMonotone(b1: real, y1: real, b2: real, y2: real)
    requires AngleDifference(b1, y1) <= AngleDifference(b2, y2)
    ensures PositionalFactor(b2, y2) <= PositionalFactor(b1, y1)
  {
  }

  /** Angles 0, pi/2 and pi, the pi/4 boundary, and a yaw three eighths of a turn from the bearing. */
  lemma PositionalExamples()
    ensures PositionalFactor(0.0, 0.0) == BACKSTAB_MULTIPLIER
    ensures PositionalFactor(PI / 2.0, 0.0) == SIDE_MULTIPLIER
    ensures PositionalFactor(PI, 0.0) == FRONTAL_ATTACK_PENALTY
    ensures PositionalFactor(PI / 4.0, 0.0) == SIDE_MULTIPLIER
    ensures PositionalFactor(0.0, 3.0 * PI / 4.0) == FRONTAL_ATTACK_PENALTY
  {
  }

  /** Adding a full turn to the bearing (another atan2 representative) changes nothing. */
  lemma {:induction false} AngleDifferencePeriodic(bearing: real, targetYaw: real)
    ensures AngleDifference(bearing + 2.0 * PI, targetYaw) == AngleDifference(bearing, targetYaw)
  {
    var x := bearing - targetYaw;
    assert bearing + 2.0 * PI - targetYaw == x + 2.0 * PI;
    if x >= 0.0 {
      assert Wrap(x + 2.0 * PI) == Wrap(x);
    } else if x + 2.0 * PI < 0.0 {
      assert Abs(x) == Abs(x + 2.0 * PI) + 2.0 * PI;
      assert Wrap(Abs(x)) == Wrap(Abs(x + 2.0 * PI));
    } else {
      // -2pi <= x < 0: both sides fold to the same distance from a full turn
      if x >= -PI {
        assert Wrap(-x) == -x;
        if x + 2.0 * PI > PI {
          WrapIsCanonical(x + 2.0 * PI, 1);
        }
      } else {
        WrapIsCanonical(-x, 1);
        assert Wrap(x + 2.0 * PI) == x + 2.0 * PI;
      }
    }
  }

  // ---------------------------------------------------------------- facing

  /** The atan2 bearing of the direction a target with this yaw looks in. */
  function FacingBearing(yaw: real): real {
    yaw + PI / 2.0
  }

  /** The atan2 bearing of the point straight behind a target with this yaw. */
  function BackBearing(yaw: real): real {
    yaw - PI / 2.0
  }

  /**
    As written the tiers sit a quarter turn off: an attacker straight behind
    the target or straight in front of it gets the side factor, one flank
    gets the backstab bonus and the other the head-on penalty.
   */
  lemma PositionalTiersMisplaced(yaw: real)
    ensures PositionalFactor(BackBearing(yaw), yaw) == SIDE_MULTIPLIER
    ensures PositionalFactor(FacingBearing(yaw), yaw) == SIDE_MULTIPLIER
    ensures PositionalFactor(yaw, yaw) == BACKSTAB_MULTIPLIER
    ensures PositionalFactor(yaw + PI, yaw) == FRONTAL_ATTACK_PENALTY
  {
    assert BackBearing(yaw) - yaw == -(PI / 2.0);
    assert FacingBearing(yaw) - yaw == PI / 2.0;
    assert yaw + PI - yaw == PI;
  }

  /** The positional factor over the angle between the attacker's bearing and the target's back. */
  function PositionalFactorCorrected(bearing: real, targetYaw: real): (factor: real)
    ensures factor == BACKSTAB_MULTIPLIER <==> AngleDifference(bearing, BackBearing(targetYaw)) < PI / 4.0
    ensures factor == SIDE_MULTIPLIER
        <==> PI / 4.0 <= AngleDifference(bearing, BackBearing(targetYaw)) < 3.0 * PI / 4.0
    ensures factor == FRONTAL_ATTACK_PENALTY
        <==> AngleDifference(bearing, BackBearing(targetYaw)) >= 3.0 * PI / 4.0
  {
    PositionalFactor(bearing, BackBearing(targetYaw))
  }

  /** Corrected, the tiers follow the target's facing: behind 1.25, either flank 1.08, in front 0.95. */
  lemma PositionalFactorCorrectedFollowsFacing(yaw: real)
    ensures PositionalFactorCorrected(BackBearing(yaw), yaw) == BACKSTAB_MULTIPLIER
    ensures PositionalFactorCorrected(FacingBearing(yaw), yaw) == FRONTAL_ATTACK_PENALTY
    ensures PositionalFactorCorrected(yaw, yaw) == SIDE_MULTIPLIER
    ensures PositionalFactorCorrected(yaw + PI, yaw) == SIDE_MULTIPLIER
  {
    assert BackBearing(yaw) - BackBearing(yaw) == 0.0;
    assert FacingBearing(yaw) - BackBearing(yaw) == PI;
    assert yaw - BackBearing(yaw) == PI / 2.0;
    assert yaw + PI - BackBearing(yaw) == 3.0 * PI / 2.0;
    assert Wrap(3.0 * PI / 2.0) == -(PI / 2.0);
  }
}

=== FILE: armor.dfy ===
/**
  applyArmorReduction: with pre-armor damage D, armor A and toughness T,
  f = 2 + T/4 and f1 = min(A - D/f, 0.2 A), the damage becomes
  D * (1 - f1/25).

  The formula it names is the game's own (CombatRules.getDamageAfterAbsorb),
  which clamps A - D/f into [0.2 A, 20]. The source takes the minimum with
  0.2 A instead, so the term is bounded above by 0.2 A where the game bounds
  it below, and it has no lower bound at all: when D/f exceeds A the
  "reduction" multiplies the damage up, and a target with no armor takes
  more than D. ArmorReductionAsWritten keeps the source's formula;
  ArmorReduction is the game's.
 */
module Armor {
  import opened RealMath
  import opened Snapshot

  /** The game's cap on the absorbed term. */
  const ABSORB_CAP: real := 20.0

  /** The toughness divisor f = 2 + T/4. */
  function ToughnessDivisor(toughness: NonNegReal): (f: real)
    ensures f >= 2.0
  {
    2.0 + toughness / 4.0
  }

  /** Damage scaled by the absorbed term: D * (1 - f1/25). */
  function Reduce(damage: real, absorbed: real): real {
    damage * (1.0 - absorbed / 25.0)
  }

  /** The absorbed term f1 exactly as the source computes it. */
  function AbsorbedAsWritten(damage: real, armor: NonNegReal, toughness: NonNegReal): (f1: real)
    ensures f1 <= armor * 0.2
    ensures damage / ToughnessDivisor(toughness) <= armor * 0.8 <==> f1 == armor * 0.2
  {
    Min(armor - damage / ToughnessDivisor(toughness), armor * 0.2)
  }

  /** The absorbed term as the game computes it: A - D/f clamped into [0.2 A, 20]. */
  function Absorbed(damage: real, armor: NonNegReal, toughness: NonNegReal): (f1: real)
    ensures f1 >= 0.0
    ensures armor <= 100.0 ==> armor * 0.2 <= f1 <= ABSORB_CAP
    ensures armor <= 100.0 ==> f1 >= AbsorbedAsWritten(damage, armor, toughness)
    ensures armor * 0.2 <= armor - damage / ToughnessDivisor(toughness) <= ABSORB_CAP ==>
      f1 == armor - damage / ToughnessDivisor(toughness)
  {
    Clamp(armor - damage / ToughnessDivisor(toughness), armor * 0.2, ABSORB_CAP)
  }

  /** applyArmorReduction as written. */
  function ArmorReductionAsWritten(damage: real, armor: NonNegReal, toughness: NonNegReal): (r: real)
    ensures damage >= 0.0 ==> r >= damage * (1.0 - armor / 125.0)
    ensures armor == 0.0 && damage > 0.0 ==> r > damage
  {
    AsWrittenBounds(damage, armor, toughness);
    Reduce(damage, AbsorbedAsWritten(damage, armor, toughness))
  }

  /** applyArmorReduction with the game's absorbed term. */
  function ArmorReduction(damage: real, armor: NonNegReal, toughness: NonNegReal): (r: real)
    ensures damage >= 0.0 ==> r <= damage
    ensures damage >= 0.0 && armor <= 100.0 ==> damage * 0.2 <= r <= damage * (1.0 - armor / 125.0)
    ensures armor == 0.0 && damage >= 0.0 ==> r == damage
  {
    CorrectedBounds(damage, armor, toughness);
    Reduce(damage, Absorbed(damage, armor, toughness))
  }

  // ---------------------------------------------------------------- scaling

  /** A larger absorbed term never leaves more damage. */
  lemma ReduceAntitone(damage: real, a1: real, a2: real)
    requires damage >= 0.0 && a1 <= a2
    ensures Reduce(damage, a2) <= Reduce(damage, a1)
  {
    MulMonotone(damage, 1.0 - a2 / 25.0, 1.0 - a1 / 25.0);
  }

  /** More damage in, with an absorbed term that does not grow and stays within 25, never means less out. */
  lemma ReduceMonotone(d1: real, d2: real, a1: real, a2: real)
    requires 0.0 <= d1 <= d2
    requires a2 <= a1 <= 25.0
    ensures Reduce(d1, a1) <= Reduce(d2, a2)
  {
    var g1, g2 := 1.0 - a1 / 25.0, 1.0 - a2 / 25.0;
    MulMonotone(d1, g1, g2);
    MulMonotone(g2, d1, d2);
  }

  /** For a positive damage, different absorbed terms leave different damages. */
  lemma ReduceInjective(damage: real, a1: real, a2: real)
    requires damage > 0.0 && a1 < a2
    ensures Reduce(damage, a2) < Reduce(damage, a1)
  {
    assert Reduce(damage, a1) - Reduce(damage, a2) == damage * ((a2 - a1) / 25.0);
    DivPositive(a2 - a1, 25.0);
    MulPositive(damage, (a2 - a1) / 25.0);
  }

  lemma AsWrittenBounds(damage: real, armor: NonNegReal, toughness: NonNegReal)
    ensures damage >= 0.0 ==> Reduce(damage, AbsorbedAsWritten(damage, armor, toughness)) >= damage * (1.0 - armor / 125.0)
    ensures armor == 0.0 && damage > 0.0 ==> Reduce(damage, AbsorbedAsWritten(damage, armor, toughness)) > damage
  {
    var f1 := AbsorbedAsWritten(damage, armor, toughness);
    if damage >= 0.0 {
      ReduceAntitone(damage, f1, armor * 0.2);
      assert Reduce(damage, armor * 0.2) == damage * (1.0 - armor / 125.0);
    }
    if armor == 0.0 && damage > 0.0 {
      var q := damage / ToughnessDivisor(toughness);
      DivPositive(damage, ToughnessDivisor(toughness));
      assert f1 == -q;
      assert Reduce(damage, f1) == damage + damage * (q / 25.0);
      DivPositive(q, 25.0);
      MulPositive(damage, q / 25.0);
    }
  }

  lemma CorrectedBounds(damage: real, armor: NonNegReal, toughness: NonNegReal)
    ensures damage >= 0.0 ==> Reduce(damage, Absorbed(damage, armor, toughness)) <= damage
    ensures damage >= 0.0 && armor <= 100.0 ==>
      damage * 0.2 <= Reduce(damage, Absorbed(damage, armor, toughness)) <= damage * (1.0 - armor / 125.0)
    ensures armor == 0.0 && damage >= 0.0 ==> Reduce(damage, Absorbed(damage, armor, toughness)) == damage
  {
    var f1 := Absorbed(damage, armor, toughness);
    if damage >= 0.0 {
      ReduceAntitone(damage, 0.0, f1);
      if armor <= 100.0 {
        ReduceAntitone(damage, armor * 0.2, f1);
        ReduceAntitone(damage, f1, ABSORB_CAP);
        assert Reduce(damage, armor * 0.2) == damage * (1.0 - armor / 125.0);
        assert Reduce(damage, ABSORB_CAP) == damage * 0.2;
      }
      if armor == 0.0 {
        assert armor - damage / ToughnessDivisor(toughness) <= 0.0;
        assert f1 == 0.0;
      }
    }
  }

  // ---------------------------------------------------------------- properties

  /**
    Below 100 armor and for a positive damage, the two versions agree
    exactly when D/f is 0.8 of the armor, the one point where A - D/f
    meets 0.2 A.
   */
  lemma AgreeIff(damage: real, armor: NonNegReal, toughness: NonNegReal)
    requires damage > 0.0 && armor < 100.0
    ensures ArmorReduction(damage, armor, toughness) == ArmorReductionAsWritten(damage, armor, toughness)
        <==> damage / ToughnessDivisor(toughness) == armor * 0.8
  {
    var x := armor - damage / ToughnessDivisor(toughness);
    var aw, van := AbsorbedAsWritten(damage, armor, toughness), Absorbed(damage, armor, toughness);
    if x < armor * 0.2 {
      assert aw == x && van == armor * 0.2;
      ReduceInjective(damage, aw, van);
    } else if x > armor * 0.2 {
      assert aw == armor * 0.2 && van > aw;
      ReduceInjective(damage, aw, van);
    } else {
      assert aw == van;
    }
  }

  /** Up to 100 armor, the game's term never lets more damage through than the source's. */
  lemma AsWrittenLetsMoreThrough(damage: real, armor: NonNegReal, toughness: NonNegReal)
    requires damage >= 0.0 && armor <= 100.0
    ensures ArmorReduction(damage, armor, toughness) <= ArmorReductionAsWritten(damage, armor, toughness)
  {
    ReduceAntitone(damage, AbsorbedAsWritten(damage, armor, toughness), Absorbed(damage, armor, toughness));
  }

  /** More armor never lets more damage through: as written always, the game's formula up to 100 armor. */
  lemma ArmorMonotoneInArmor(damage: real, a1: NonNegReal, a2: NonNegReal, toughness: NonNegReal)
    requires damage >= 0.0 && a1 <= a2
    ensures ArmorReductionAsWritten(damage, a2, toughness) <= ArmorReductionAsWritten(damage, a1, toughness)
    ensures a2 <= 100.0 ==> ArmorReduction(damage, a2, toughness) <= ArmorReduction(damage, a1, toughness)
  {
    ReduceAntitone(damage, AbsorbedAsWritten(damage, a1, toughness), AbsorbedAsWritten(damage, a2, toughness));
    if a2 <= 100.0 {
      var q := damage / ToughnessDivisor(toughness);
      ClampOrder(a1 - q, a2 - q, a1 * 0.2, a2 * 0.2, ABSORB_CAP);
      ReduceAntitone(damage, Absorbed(damage, a1, toughness), Absorbed(damage, a2, toughness));
    }
  }

  /** More toughness never lets more damage through: as written always, the game's formula up to 100 armor. */
  lemma ArmorMonotoneInToughness(damage: real, armor: NonNegReal, t1: NonNegReal, t2: NonNegReal)
    requires damage >= 0.0 && t1 <= t2
    ensures ArmorReductionAsWritten(damage, armor, t2) <= ArmorReductionAsWritten(damage, armor, t1)
    ensures armor <= 100.0 ==> ArmorReduction(damage, armor, t2) <= ArmorReduction(damage, armor, t1)
  {
    DivAntitone(damage, ToughnessDivisor(t1), ToughnessDivisor(t2));
    ReduceAntitone(damage, AbsorbedAsWritten(damage, armor, t1), AbsorbedAsWritten(damage, armor, t2));
    if armor <= 100.0 {
      ClampOrder(armor - damage / ToughnessDivisor(t1), armor - damage / ToughnessDivisor(t2),
                 armor * 0.2, armor * 0.2, ABSORB_CAP);
      ReduceAntitone(damage, Absorbed(damage, armor, t1), Absorbed(damage, armor, t2));
    }
  }

  /** More damage in never means less damage out: as written up to 125 armor, the game's formula up to 100. */
  lemma ArmorMonotoneInDamage(d1: real, d2: real, armor: NonNegReal, toughness: NonNegReal)
    requires 0.0 <= d1 <= d2
    ensures armor <= 125.0 ==>
      ArmorReductionAsWritten(d1, armor, toughness) <= ArmorReductionAsWritten(d2, armor, toughness)
    ensures armor <= 100.0 ==> ArmorReduction(d1, armor, toughness) <= ArmorReduction(d2, armor, toughness)
  {
    var f := ToughnessDivisor(toughness);
    DivMonotone(d1, d2, f);
    if armor <= 125.0 {
      ReduceMonotone(d1, d2, AbsorbedAsWritten(d1, armor, toughness), AbsorbedAsWritten(d2, armor, toughness));
    }
    if armor <= 100.0 {
      ClampOrder(armor - d2 / f, armor - d1 / f, armor * 0.2, armor * 0.2, ABSORB_CAP);
      ReduceMonotone(d1, d2, Absorbed(d1, armor, toughness), Absorbed(d2, armor, toughness));
    }
  }

  /** As written, an unarmoured target takes 12 from a hit of 10, and 0.96805 from a hit of 0.95. */
  lemma ZeroArmorRaisesDamageAsWritten()
    ensures ArmorReductionAsWritten(10.0, 0.0, 0.0) == 12.0
    ensures ArmorReductionAsWritten(0.95, 0.0, 0.0) == 0.96805
    ensures ArmorReduction(10.0, 0.0, 0.0) == 10.0
  {
    assert AbsorbedAsWritten(10.0, 0.0, 0.0) == -5.0;
    assert AbsorbedAsWritten(0.95, 0.0, 0.0) == -0.475;
  }

  /**
    20 armor without toughness: a hit of 10 becomes 8.4 as written, where
    the game's formula takes f1 = 15 and leaves 4.
   */
  lemma TwentyArmorExample()
    ensures ArmorReductionAsWritten(10.0, 20.0, 0.0) == 8.4
    ensures ArmorReduction(10.0, 20.0, 0.0) == 4.0
  {
    assert AbsorbedAsWritten(10.0, 20.0, 0.0) == 4.0;
    assert Absorbed(10.0, 20.0, 0.0) == 15.0;
  }

  /**
    10 armor without toughness against a hit of 40: the game's formula
    keeps f1 at the floor 2 and leaves 36.8; the source lets f1 fall to -10
    and turns the hit into 56.
   */
  lemma HeavyHitExample()
    ensures ArmorReduction(40.0, 10.0, 0.0) == 36.8
    ensures ArmorReductionAsWritten(40.0, 10.0, 0.0) == 56.0
  {
    assert Absorbed(40.0, 10.0, 0.0) == 2.0;
    assert AbsorbedAsWritten(40.0, 10.0, 0.0) == -10.0;
  }
}

=== FILE: modifiers.dfy ===
/**
  The independent modifier functions of the pipeline: each reads a slice of
  the snapshot and yields a multiplicative factor (around 1.0) or an
  additive bonus (around 0.0). The positional factor lives in Angles, the
  status-effect factor in StatusEffects and the armor formula in Armor.
 */
module Modifiers {
  import opened RealMath
  import opened Snapshot
  import opened Text

  const SLOW_ATTACK_THRESHOLD: real := 1.0
  const FAST_ATTACK_THRESHOLD: real := 2.5
  /** The attack speed most weapons are normalised against. */
  const BASE_ATTACK_SPEED: real := 4.0

  const RAIN_PENALTY: real := 0.95
  const UNDERWATER_PENALTY: real := 0.85
  const HIGH_ALTITUDE_BONUS: real := 1.05
  const NETHER_HEAT_PENALTY: real := 0.95
  const DARKNESS_PENALTY: real := 0.95

  const ELEMENTAL_WEAKNESS_MULTIPLIER: real := 1.1
  const ELEMENTAL_RESISTANCE_MULTIPLIER: real := 0.9

  const MOB_CRITICAL_CHANCE: real := 0.05
  const VARIANCE: real := 0.15

  // ---------------------------------------------------------------- weapon

  /** getBaseDamage: 1.0 bare-handed, otherwise the item's attack damage floored at 1.0. */
  function BaseDamage(w: Weapon): (damage: real)
    ensures damage >= 1.0
    ensures w.Empty? ==> damage == 1.0
    ensures w.Item? && w.damageBonus >= 1.0 ==> damage == w.damageBonus
    ensures w.Item? && w.damageBonus < 1.0 ==> damage == 1.0
  {
    if w.Empty? then 1.0 else Max(1.0, w.damageBonus)
  }

  /** A larger attack-damage modifier on the same item never gives a smaller base damage. */
  lemma BaseDamageMonotone(w: Weapon, d1: real, d2: real)
    requires w.Item? && d1 <= d2
    ensures BaseDamage(w.(damageBonus := d1)) <= BaseDamage(w.(damageBonus := d2))
    ensures d2 > 1.0 && d1 < d2 ==> BaseDamage(w.(damageBonus := d1)) < BaseDamage(w.(damageBonus := d2))
  {
  }

  /** The weapon's attack speed: the baseline 4.0 plus the item's speed modifiers. */
  function AttackSpeed(w: Weapon): real {
    BASE_ATTACK_SPEED + (if w.Empty? then 0.0 else w.speedBonus)
  }

  /** getAttackSpeedModifier: slow weapons hit harder, fast ones softer, bare hands neither. */
  function SpeedFactor(w: Weapon): (factor: real)
    ensures w.Empty? ==> factor == 1.0
    ensures w.Item? ==> (factor == 1.15 <==> AttackSpeed(w) <= SLOW_ATTACK_THRESHOLD)
    ensures w.Item? ==> (factor == 0.85 <==> AttackSpeed(w) >= FAST_ATTACK_THRESHOLD)
    ensures w.Item? ==> (factor == 1.0 <==> SLOW_ATTACK_THRESHOLD < AttackSpeed(w) < FAST_ATTACK_THRESHOLD)
  {
    if w.Empty? then 1.0
    else if AttackSpeed(w) <= SLOW_ATTACK_THRESHOLD then 1.15
    else if AttackSpeed(w) >= FAST_ATTACK_THRESHOLD then 0.85
    else 1.0
  }

  /**
    In terms of the item's own speed modifier: at most -3 is the slow tier,
    at least -1.5 the fast tier (a sword's -2.4 is neither, an axe's -3.0 is
    slow, a trident's -2.9 is neither).
   */
  lemma SpeedTierByModifier(w: Weapon)
    requires w.Item?
    ensures SpeedFactor(w) == 1.15 <==> w.speedBonus <= -3.0
    ensures SpeedFactor(w) == 0.85 <==> w.speedBonus >= -1.5
    ensures SpeedFactor(w) == 1.0 <==> -3.0 < w.speedBonus < -1.5
  {
  }

  /** Among items, a slower weapon never gets a smaller speed factor. */
  lemma SpeedFactorMonotone(w1: Weapon, w2: Weapon)
    requires w1.Item? && w2.Item?
    requires AttackSpeed(w1) <= AttackSpeed(w2)
    ensures SpeedFactor(w2) <= SpeedFactor(w1)
  {
  }

  // ---------------------------------------------------------------- attacker

  /** getAttributeDamageBonus: the attacker's attack-damage attribute above the unarmed 1.0. */
  function AttributeBonus(attacker: Actor): (bonus: real)
    ensures bonus == 0.0 <==> attacker.attackDamage == 1.0
    ensures attacker.attackDamage >= 0.0 ==> bonus >= -1.0
  {
    attacker.attackDamage - 1.0
  }

  /** Every point of attack-damage attribute above the base adds exactly one point of bonus. */
  lemma AttributeBonusShifts(attacker: Actor, extra: real)
    ensures AttributeBonus(attacker.(attackDamage := attacker.attackDamage + extra))
         == AttributeBonus(attacker) + extra
  {
  }

  /** shouldCriticalHit: players by their jump-attack state, other mobs by a 5% roll. */
  function IsCritical(attacker: Actor, draw: Draw): (critical: bool)
    ensures IsPlayer(attacker) && (attacker.onGround || attacker.inWater || attacker.riding) ==> !critical
  {
    match attacker.player
    case Some(p) =>
      && p.attackStrengthScale > 0.9
      && attacker.fallDistance > 0.0
      && !attacker.onGround
      && !attacker.inWater
      && Blindness !in attacker.effects
      && !attacker.riding
    case None =>
      draw < MOB_CRITICAL_CHANCE
  }

  /** A player's critical hit never depends on the random draw. */
  lemma PlayerCriticalIgnoresDraw(attacker: Actor, d1: Draw, d2: Draw)
    requires IsPlayer(attacker)
    ensures IsCritical(attacker, d1) == IsCritical(attacker, d2)
  {
  }

  /**
    A mob's critical hits are the low draws: a lower draw never loses a
    critical hit, the lowest draw always has one and the middle draw never does.
   */
  lemma MobCriticalOnLowDraws(attacker: Actor, d1: Draw, d2: Draw)
    requires !IsPlayer(attacker) && d1 <= d2
    ensures IsCritical(attacker, d2) ==> IsCritical(attacker, d1)
    ensures IsCritical(attacker, 0.0)
    ensures !IsCritical(attacker, 0.5)
  {
  }

  function HungerFactor(foodLevel: int): real {
    if foodLevel < 6 then 0.85 else if foodLevel < 12 then 0.95 else 1.0
  }

  function ExhaustionFactor(exhaustion: real): real {
    if exhaustion > 3.0 then 0.93 else 1.0
  }

  /** getPlayerConditionModifier: hunger tier times exhaustion penalty, players only. */
  function PlayerCondition(attacker: Actor): (factor: real)
    ensures !IsPlayer(attacker) ==> factor == 1.0
    ensures 0.85 * 0.93 <= factor <= 1.0
    ensures factor == 1.0 <==>
      !IsPlayer(attacker)
      || (attacker.player.value.foodLevel >= 12 && attacker.player.value.exhaustion <= 3.0)
    ensures IsPlayer(attacker) && attacker.player.value.exhaustion <= 3.0 ==>
      (factor == 0.85 <==> attacker.player.value.foodLevel < 6)
      && (factor == 0.95 <==> 6 <= attacker.player.value.foodLevel < 12)
  {
    match attacker.player
    case None => 1.0
    case Some(p) => HungerFactor(p.foodLevel) * ExhaustionFactor(p.exhaustion)
  }

  /** Exhaustion above 3 costs exactly 7% on top of the hunger tier. */
  lemma ExhaustionCostsSevenPercent(attacker: Actor, tired: real, rested: real)
    requires IsPlayer(attacker)
    requires rested <= 3.0 < tired
    ensures PlayerCondition(attacker.(player := Some(attacker.player.value.(exhaustion := tired))))
         == 0.93 * PlayerCondition(attacker.(player := Some(attacker.player.value.(exhaustion := rested))))
  {
  }

  /** A better-fed player never fights worse. */
  lemma PlayerConditionMonotoneInFood(attacker: Actor, food1: int, food2: int)
    requires IsPlayer(attacker)
    requires food1 <= food2
    ensures PlayerCondition(attacker.(player := Some(attacker.player.value.(foodLevel := food1))))
         <= PlayerCondition(attacker.(player := Some(attacker.player.value.(foodLevel := food2))))
  {
  }

  // ---------------------------------------------------------------- world

  /** One conditional factor of the environmental product. */
  function Penalty(applies: bool, factor: real): real {
    if applies then factor else 1.0
  }

  predicate InRain(w: World) { w.raining && w.skyVisible }
  predicate Submerged(a: Actor) { a.inWater && WaterBreathing !in a.effects }
  /** blockPosition().getY() > 128; the block Y is the floor of the position's Y. */
  predicate HighUp(a: Actor) { a.position.y.Floor > 128 }
  predicate VeryHot(w: World) { w.biomeTemperature > 1.5 }
  predicate InDarkness(a: Actor, w: World) { w.blockLight < 4 && NightVision !in a.effects }

  /** getEnvironmentalModifier: the product of five independent conditions. */
  function EnvironmentalFactor(attacker: Actor, world: World): (factor: real)
    ensures RAIN_PENALTY * UNDERWATER_PENALTY * NETHER_HEAT_PENALTY * DARKNESS_PENALTY <= factor
    ensures factor <= HIGH_ALTITUDE_BONUS
    ensures factor == 1.0 <==>
      !InRain(world) && !Submerged(attacker) && !HighUp(attacker)
      && !VeryHot(world) && !InDarkness(attacker, world)
    ensures factor > 1.0 <==>
      HighUp(attacker) && !InRain(world) && !Submerged(attacker)
      && !VeryHot(world) && !InDarkness(attacker, world)
  {
    1.0
    * Penalty(InRain(world), RAIN_PENALTY)
    * Penalty(Submerged(attacker), UNDERWATER_PENALTY)
    * Penalty(HighUp(attacker), HIGH_ALTITUDE_BONUS)
    * Penalty(VeryHot(world), NETHER_HEAT_PENALTY)
    * Penalty(InDarkness(attacker, world), DARKNESS_PENALTY)
  }

  // Each condition acts on its own: switching one on, with everything else
  // as it was, multiplies the factor by exactly that condition's constant.

  /** Rain under open sky costs 5%. */
  lemma RainCostsFivePercent(attacker: Actor, world: World)
    requires world.skyVisible
    ensures EnvironmentalFactor(attacker, world.(raining := true))
         == RAIN_PENALTY * EnvironmentalFactor(attacker, world.(raining := false))
  {
  }

  /** Fighting in water without water breathing costs 15%. */
  lemma WaterCostsFifteenPercent(attacker: Actor, world: World)
    requires WaterBreathing !in attacker.effects
    ensures EnvironmentalFactor(attacker.(inWater := true), world)
         == UNDERWATER_PENALTY * EnvironmentalFactor(attacker.(inWater := false), world)
  {
  }

  /** Standing above block Y 128 gains 5%. */
  lemma AltitudeGainsFivePercent(attacker: Actor, world: World, high: real, low: real)
    requires low.Floor <= 128 < high.Floor
    ensures EnvironmentalFactor(attacker.(position := attacker.position.(y := high)), world)
         == HIGH_ALTITUDE_BONUS * EnvironmentalFactor(attacker.(position := attacker.position.(y := low)), world)
  {
  }

  /** A biome with base temperature above 1.5 costs 5%. */
  lemma HeatCostsFivePercent(attacker: Actor, world: World, hot: real, mild: real)
    requires mild <= 1.5 < hot
    ensures EnvironmentalFactor(attacker, world.(biomeTemperature := hot))
         == NETHER_HEAT_PENALTY * EnvironmentalFactor(attacker, world.(biomeTemperature := mild))
  {
  }

  /** Block light below 4 without night vision costs 5%. */
  lemma DarknessCostsFivePercent(attacker: Actor, world: World, dark: int, lit: int)
    requires NightVision !in attacker.effects
    requires dark < 4 <= lit
    ensures EnvironmentalFactor(attacker, world.(blockLight := dark))
         == DARKNESS_PENALTY * EnvironmentalFactor(attacker, world.(blockLight := lit))
  {
  }

  // ---------------------------------------------------------------- weapon condition

  /** isDamageableItem(); the engine reports it only for items with a positive maximum. */
  predicate WearsDown(w: Weapon) {
    w.Item? && w.damageable && w.maxDurability > 0
  }

  /** The remaining fraction of durability, 1 - wear / max. */
  function RemainingDurability(w: Weapon): real
    requires WearsDown(w)
  {
    1.0 - w.wear as real / w.maxDurability as real
  }

  /** The durability bands: the first band whose bound the fraction is under wins. */
  function ConditionBand(remaining: real): (factor: real)
    ensures factor == 0.85 <==> remaining < 0.10
    ensures factor == 0.92 <==> 0.10 <= remaining < 0.25
    ensures factor == 0.97 <==> 0.25 <= remaining < 0.50
    ensures factor == 1.0 <==> remaining >= 0.50
  {
    if remaining < 0.10 then 0.85
    else if remaining < 0.25 then 0.92
    else if remaining < 0.50 then 0.97
    else 1.0
  }

  /** More durability left never means a worse band. */
  lemma ConditionBandMonotone(r1: real, r2: real)
    requires r1 <= r2
    ensures ConditionBand(r1) <= ConditionBand(r2)
  {
  }

  /** getWeaponConditionModifier: bare hands and unbreakable items keep 1.0. */
  function WeaponCondition(w: Weapon): (factor: real)
    ensures !WearsDown(w) ==> factor == 1.0
    ensures 0.85 <= factor <= 1.0
    ensures WearsDown(w) ==> factor == ConditionBand(RemainingDurability(w))
  {
    if !WearsDown(w) then 1.0 else ConditionBand(RemainingDurability(w))
  }

  /** Further wear on the same item never raises its condition factor. */
  lemma WeaponConditionMonotoneInWear(w: Weapon, wear1: int, wear2: int)
    requires WearsDown(w)
    requires wear1 <= wear2
    ensures WeaponCondition(w.(wear := wear2)) <= WeaponCondition(w.(wear := wear1))
  {
    var m := w.maxDurability as real;
    assert wear1 as real / m <= wear2 as real / m by {
      assert wear2 as real / m - wear1 as real / m == (wear2 - wear1) as real / m;
    }
    ConditionBandMonotone(RemainingDurability(w.(wear := wear2)), RemainingDurability(w.(wear := wear1)));
  }

  /** The band values at fractions 0.05, 0.20, 0.40 and 0.80. */
  lemma ConditionBandExamples()
    ensures ConditionBand(0.05) == 0.85
    ensures ConditionBand(0.20) == 0.92
    ensures ConditionBand(0.40) == 0.97
    ensures ConditionBand(0.80) == 1.0
  {
  }

  // ---------------------------------------------------------------- enchantments

  /** Sharpness: 0.5 + 0.5 per level, only at a positive level. */
  function SharpnessTerm(level: int): (bonus: real)
    ensures bonus >= 0.0
    ensures level > 0 ==> bonus == 0.5 + 0.5 * level as real
    ensures level <= 0 ==> bonus == 0.0
  {
    if level > 0 then 0.5 + level as real * 0.5 else 0.0
  }

  /** Smite or bane of arthropods: 2.5 per level, only against the matching mob type. */
  function SlayingTerm(level: int, matches: bool): (bonus: real)
    ensures bonus >= 0.0
    ensures !matches ==> bonus == 0.0
    ensures matches && level > 0 ==> bonus == 2.5 * level as real
    ensures level <= 0 ==> bonus == 0.0
  {
    if level > 0 && matches then level as real * 2.5 else 0.0
  }

  /** getEnchantmentDamage: sharpness always, smite against undead, bane against arthropods. */
  function EnchantmentBonus(w: Weapon, target: Actor): (bonus: real)
    ensures bonus >= 0.0
    ensures w.Empty? ==> bonus == 0.0
    ensures target.mobType == Undead ==>
      bonus == SharpnessTerm(EnchantmentLevel(w, Sharpness)) + SlayingTerm(EnchantmentLevel(w, Smite), true)
    ensures target.mobType == Arthropod ==>
      bonus == SharpnessTerm(EnchantmentLevel(w, Sharpness)) + SlayingTerm(EnchantmentLevel(w, BaneOfArthropods), true)
    ensures target.mobType != Undead && target.mobType != Arthropod ==>
      bonus == SharpnessTerm(EnchantmentLevel(w, Sharpness))
  {
    SharpnessTerm(EnchantmentLevel(w, Sharpness))
    + SlayingTerm(EnchantmentLevel(w, Smite), target.mobType == Undead)
    + SlayingTerm(EnchantmentLevel(w, BaneOfArthropods), target.mobType == Arthropod)
  }

  /** A sword with sharpness 3, smite 5 and bane 5 against a plain target: only the 2.0 of sharpness. */
  lemma EnchantmentExample(target: Actor)
    requires target.mobType != Undead && target.mobType != Arthropod
    ensures EnchantmentBonus(Item(6.0, -2.4, true, 1561, 0,
      map[Sharpness := 3, Smite := 5, BaneOfArthropods := 5]), target) == 2.0
  {
  }

  /** Raising any one enchantment level on an item never lowers the enchantment bonus. */
  lemma EnchantmentBonusMonotone(w: Weapon, target: Actor, e: Enchantment, l1: int, l2: int)
    requires w.Item? && l1 <= l2
    ensures EnchantmentBonus(w.(enchantments := w.enchantments[e := l1]), target)
         <= EnchantmentBonus(w.(enchantments := w.enchantments[e := l2]), target)
  {
    var w1, w2 := w.(enchantments := w.enchantments[e := l1]), w.(enchantments := w.enchantments[e := l2]);
    assert EnchantmentLevel(w1, e) == l1 && EnchantmentLevel(w2, e) == l2;
    forall other: Enchantment | other != e
      ensures EnchantmentLevel(w1, other) == EnchantmentLevel(w2, other)
    {
    }
  }

  /** The same weapon with its sharpness removed. */
  function WithoutSharpness(w: Weapon): (stripped: Weapon)
    ensures EnchantmentLevel(stripped, Sharpness) == 0
    ensures forall e :: e != Sharpness ==> EnchantmentLevel(stripped, e) == EnchantmentLevel(w, e)
  {
    if w.Empty? then w else w.(enchantments := w.enchantments - {Sharpness})
  }

  /** Sharpness adds the same amount against every target, on top of whatever the rest gives. */
  lemma SharpnessIndependentOfTarget(w: Weapon, target: Actor)
    ensures EnchantmentBonus(w, target)
         == SharpnessTerm(EnchantmentLevel(w, Sharpness)) + EnchantmentBonus(WithoutSharpness(w), target)
  {
    var s := WithoutSharpness(w);
    assert EnchantmentLevel(s, Smite) == EnchantmentLevel(w, Smite);
    assert EnchantmentLevel(s, BaneOfArthropods) == EnchantmentLevel(w, BaneOfArthropods);
  }

  // ---------------------------------------------------------------- elemental

  /** isVulnerableToFire: undead, or a type name mentioning creeper, ice or snow. */
  predicate VulnerableToFire(target: Actor) {
    || target.mobType == Undead
    || Contains(target.typeName, "creeper")
    || Contains(target.typeName, "ice")
    || Contains(target.typeName, "snow")
  }

  /** isResistantToFire: fire-immune, a blaze, magma or ghast name, or fire resistance. */
  predicate ResistantToFire(target: Actor) {
    || target.fireImmune
    || Contains(target.typeName, "blaze")
    || Contains(target.typeName, "magma")
    || Contains(target.typeName, "ghast")
    || FireResistance in target.effects
  }

  /** Spelled out: undead, or the type name contains one of the three words somewhere. */
  lemma VulnerableToFireIff(target: Actor)
    ensures VulnerableToFire(target) <==>
      || target.mobType == Undead
      || (exists i: nat :: OccursAt(target.typeName, "creeper", i))
      || (exists i: nat :: OccursAt(target.typeName, "ice", i))
      || (exists i: nat :: OccursAt(target.typeName, "snow", i))
  {
    ContainsIffOccurs(target.typeName, "creeper");
    ContainsIffOccurs(target.typeName, "ice");
    ContainsIffOccurs(target.typeName, "snow");
  }

  /** Spelled out: fire-immune, fire resistance, or the type name contains one of the three words somewhere. */
  lemma ResistantToFireIff(target: Actor)
    ensures ResistantToFire(target) <==>
      || target.fireImmune
      || (exists i: nat :: OccursAt(target.typeName, "blaze", i))
      || (exists i: nat :: OccursAt(target.typeName, "magma", i))
      || (exists i: nat :: OccursAt(target.typeName, "ghast", i))
      || FireResistance in target.effects
  {
    ContainsIffOccurs(target.typeName, "blaze");
    ContainsIffOccurs(target.typeName, "magma");
    ContainsIffOccurs(target.typeName, "ghast");
  }

  /** calculateElementalDamage: 0.5 per fire-aspect level, 10% up if vulnerable, else 10% down if resistant. */
  function ElementalBonus(w: Weapon, target: Actor): (bonus: real)
    ensures bonus >= 0.0
    ensures EnchantmentLevel(w, FireAspect) <= 0 ==> bonus == 0.0
    ensures EnchantmentLevel(w, FireAspect) > 0 && VulnerableToFire(target) ==>
      bonus == EnchantmentLevel(w, FireAspect) as real * 0.5 * ELEMENTAL_WEAKNESS_MULTIPLIER
    ensures EnchantmentLevel(w, FireAspect) > 0 && !VulnerableToFire(target) && ResistantToFire(target) ==>
      bonus == EnchantmentLevel(w, FireAspect) as real * 0.5 * ELEMENTAL_RESISTANCE_MULTIPLIER
    ensures EnchantmentLevel(w, FireAspect) > 0 && !VulnerableToFire(target) && !ResistantToFire(target) ==>
      bonus == EnchantmentLevel(w, FireAspect) as real * 0.5
  {
    var level := EnchantmentLevel(w, FireAspect);
    if level <= 0 then 0.0
    else
      var base := level as real * 0.5;
      if VulnerableToFire(target) then base * ELEMENTAL_WEAKNESS_MULTIPLIER
      else if ResistantToFire(target) then base * ELEMENTAL_RESISTANCE_MULTIPLIER
      else base
  }

  /** A higher fire-aspect level on an item never lowers the fire bonus. */
  lemma ElementalBonusMonotone(w: Weapon, target: Actor, l1: int, l2: int)
    requires w.Item? && l1 <= l2
    ensures ElementalBonus(w.(enchantments := w.enchantments[FireAspect := l1]), target)
         <= ElementalBonus(w.(enchantments := w.enchantments[FireAspect := l2]), target)
  {
    assert EnchantmentLevel(w.(enchantments := w.enchantments[FireAspect := l1]), FireAspect) == l1;
    assert EnchantmentLevel(w.(enchantments := w.enchantments[FireAspect := l2]), FireAspect) == l2;
  }

  /** A snow golem is fire-vulnerable through its name, even when also fire-immune: vulnerability wins. */
  lemma SnowGolemTakesFireBonus(w: Weapon, target: Actor)
    requires target.typeName == "entity.minecraft.snow_golem"
    requires target.fireImmune
    requires EnchantmentLevel(w, FireAspect) == 2
    ensures ElementalBonus(w, target) == 1.1
  {
    assert "entity.minecraft.snow_golem"[17..21] == "snow";
    ContainsAt(target.typeName, "snow", 17);
  }

  // ---------------------------------------------------------------- variance

  /** The random multiplier 1 + (draw - 0.5) * 2 * 0.15. */
  function VarianceMultiplier(draw: Draw): (m: real)
    ensures 1.0 - VARIANCE <= m < 1.0 + VARIANCE
    ensures draw == 0.5 ==> m == 1.0
  {
    1.0 + (draw - 0.5) * 2.0 * VARIANCE
  }

  /** Every multiplier in [0.85, 1.15) comes from exactly one draw, so a uniform draw gives a uniform multiplier. */
  lemma VarianceMultiplierBijective(m: real)
    requires 1.0 - VARIANCE <= m < 1.0 + VARIANCE
    ensures exists d: Draw :: VarianceMultiplier(d) == m
    ensures forall d1: Draw, d2: Draw :: VarianceMultiplier(d1) == VarianceMultiplier(d2) ==> d1 == d2
  {
    var d: Draw := (m - 0.85) / 0.3;
    assert VarianceMultiplier(d) == m;
  }

  /** applyRandomVariance with the draw made explicit; the middle draw leaves the damage alone. */
  function ApplyVariance(damage: real, draw: Draw): (r: real)
    ensures draw == 0.5 ==> r == damage
  {
    damage * VarianceMultiplier(draw)
  }

  /** The varied damage stays within 15% of the damage either way. */
  lemma VarianceBounds(damage: real, draw: Draw)
    requires damage >= 0.0
    ensures damage * 0.85 <= ApplyVariance(damage, draw) <= damage * 1.15
  {
    var m := VarianceMultiplier(draw);
    assert 1.0 - VARIANCE == 0.85 && 1.0 + VARIANCE == 1.15;
    ScaledWithin(damage, m, ApplyVariance(damage, draw));
  }

  /** A non-negative damage scaled by a multiplier in [0.85, 1.15] stays within 15% of itself. */
  lemma ScaledWithin(damage: real, m: real, r: real)
    requires damage >= 0.0 && 0.85 <= m <= 1.15
    requires r == damage * m
    ensures damage * 0.85 <= r <= damage * 1.15
  {
    MulMonotone(damage, 0.85, m);
    MulMonotone(damage, m, 1.15);
  }

  /** A larger damage keeps its order through the variance multiplier. */
  lemma VarianceMonotone(d1: real, d2: real, draw: Draw)
    requires d1 <= d2
    ensures ApplyVariance(d1, draw) <= ApplyVariance(d2, draw)
  {
    var m := VarianceMultiplier(draw);
    MulMonotone(m, d1, d2);
    assert ApplyVariance(d1, draw) == d1 * m && ApplyVariance(d2, draw) == d2 * m;
  }
}

=== FILE: pipeline.dfy ===
/**
  calculateDamage: the fixed chain of modifiers, the armor formula, the
  random variance and the two final clamps; calculateDPS; the diagnostic
  breakdown; and the guard of the hurt-event handler that decides whether a
  hit is recalculated at all.

  Collect, Unclamped, CalculateDamage, GetDamageBreakdown and OnLivingHurt
  are the source as written. CalculateDamageCorrected is the same chain
  with the three corrected pieces: the positional factor measured from the
  target's back, the floored status factor and the game's armor formula.
 */
module Pipeline {
  import opened RealMath
  import opened Snapshot
  import opened Angles
  import opened Modifiers
  import opened StatusEffects
  import opened Armor

  const CRITICAL_HIT_MULTIPLIER: real := 1.35
  /** The absolute floor of the final damage. */
  const MIN_DAMAGE: real := 0.45
  /** How much of each additive bonus the pipeline keeps. */
  const ATTRIBUTE_WEIGHT: real := 0.5
  const ENCHANTMENT_WEIGHT: real := 0.8
  const ELEMENTAL_WEIGHT: real := 0.6

  /** The value of every modifier for one hit; also the fields of the breakdown record. */
  datatype ModifierSet = ModifierSet(
    baseDamage: real,
    attackSpeedModifier: real,
    attributeBonus: real,
    enchantmentBonus: real,
    isCritical: bool,
    positionalModifier: real,
    environmentalModifier: real,
    weaponConditionModifier: real,
    playerConditionModifier: real,
    elementalDamage: real,
    statusModifier: real)

  /** The ranges the modifier functions guarantee. */
  predicate Plausible(m: ModifierSet) {
    && m.baseDamage >= 1.0
    && (m.attackSpeedModifier == 0.85 || m.attackSpeedModifier == 1.0 || m.attackSpeedModifier == 1.15)
    && m.enchantmentBonus >= 0.0
    && (m.positionalModifier == BACKSTAB_MULTIPLIER || m.positionalModifier == SIDE_MULTIPLIER
        || m.positionalModifier == FRONTAL_ATTACK_PENALTY)
    && RAIN_PENALTY * UNDERWATER_PENALTY * NETHER_HEAT_PENALTY * DARKNESS_PENALTY <= m.environmentalModifier
    && m.environmentalModifier <= HIGH_ALTITUDE_BONUS
    && 0.85 <= m.weaponConditionModifier <= 1.0
    && 0.85 * 0.93 <= m.playerConditionModifier <= 1.0
    && m.elementalDamage >= 0.0
    && m.statusModifier >= STATUS_FLOOR
  }

  /** Every modifier of one hit, each computed by its own function, as the source does. */
  function Collect(hit: Hit, critDraw: Draw): (m: ModifierSet)
    ensures Plausible(m)
    ensures hit.weapon.Empty? ==>
      m.baseDamage == 1.0 && m.attackSpeedModifier == 1.0 && m.enchantmentBonus == 0.0
      && m.weaponConditionModifier == 1.0 && m.elementalDamage == 0.0
  {
    ModifierSet(
      BaseDamage(hit.weapon),
      SpeedFactor(hit.weapon),
      AttributeBonus(hit.attacker),
      EnchantmentBonus(hit.weapon, hit.target),
      IsCritical(hit.attacker, critDraw),
      PositionalFactor(hit.scene.bearing, hit.target.yaw),
      EnvironmentalFactor(hit.attacker, hit.scene.world),
      WeaponCondition(hit.weapon),
      PlayerCondition(hit.attacker),
      ElementalBonus(hit.weapon, hit.target),
      StatusFactorAsWritten(hit.attacker.effects, hit.target.effects))
  }

  /** The modifiers with the positional and status factors corrected; the other nine as the source has them. */
  function CollectCorrected(hit: Hit, critDraw: Draw): (m: ModifierSet)
    ensures Plausible(m)
    ensures m == Collect(hit, critDraw).(positionalModifier := m.positionalModifier, statusModifier := m.statusModifier)
  {
    Collect(hit, critDraw).(
      positionalModifier := PositionalFactorCorrected(hit.scene.bearing, hit.target.yaw),
      statusModifier := StatusFactor(hit.attacker.effects, hit.target.effects))
  }

  // ---------------------------------------------------------------- combination

  /** Steps 1-4: base times speed factor, plus the weighted attribute and enchantment bonuses. */
  function Boosted(m: ModifierSet): real {
    m.baseDamage * m.attackSpeedModifier
    + m.attributeBonus * ATTRIBUTE_WEIGHT
    + m.enchantmentBonus * ENCHANTMENT_WEIGHT
  }

  /** Step 5: the critical multiplier. */
  function Critted(m: ModifierSet): real {
    if m.isCritical then Boosted(m) * CRITICAL_HIT_MULTIPLIER else Boosted(m)
  }

  /** Steps 6-10: the four condition factors, then the weighted elemental bonus. */
  function Conditioned(m: ModifierSet): real {
    Critted(m) * m.positionalModifier * m.environmentalModifier
      * m.weaponConditionModifier * m.playerConditionModifier
    + m.elementalDamage * ELEMENTAL_WEIGHT
  }

  /** Step 11: the status factor; the damage the armor formula sees. */
  function PreArmorDamage(m: ModifierSet): real {
    Conditioned(m) * m.statusModifier
  }

  /** Steps 14-15: Math.min with the maximum health first, then Math.max with 0.45. */
  function ClampToHealth(damage: real, maxHealth: real): (r: real)
    ensures r >= MIN_DAMAGE
    ensures maxHealth >= MIN_DAMAGE ==> r <= maxHealth
    ensures maxHealth < MIN_DAMAGE ==> r == MIN_DAMAGE
    ensures MIN_DAMAGE <= damage <= maxHealth ==> r == damage
  {
    Max(MIN_DAMAGE, Min(damage, maxHealth))
  }

  lemma ClampMonotone(d1: real, d2: real, maxHealth: real)
    requires d1 <= d2
    ensures ClampToHealth(d1, maxHealth) <= ClampToHealth(d2, maxHealth)
  {
  }

  /** Steps 12-13 as written: the source's armor formula, then variance, before any clamp. */
  function Unclamped(preArmor: real, target: Actor, varianceDraw: Draw): real {
    ApplyVariance(ArmorReductionAsWritten(preArmor, target.armor, target.armorToughness), varianceDraw)
  }

  /** Steps 12-13 with the game's armor formula. */
  function UnclampedCorrected(preArmor: real, target: Actor, varianceDraw: Draw): real {
    ApplyVariance(ArmorReduction(preArmor, target.armor, target.armorToughness), varianceDraw)
  }

  /** calculateDamage as written, with the draws made explicit. */
  function CalculateDamage(hit: Hit, draws: Draws): (damage: real)
    ensures damage >= MIN_DAMAGE
    ensures hit.target.maxHealth >= MIN_DAMAGE ==> damage <= hit.target.maxHealth
    ensures hit.target.maxHealth < MIN_DAMAGE ==> damage == MIN_DAMAGE
  {
    ClampToHealth(Unclamped(PreArmorDamage(Collect(hit, draws.critical)), hit.target, draws.variance),
                  hit.target.maxHealth)
  }

  /**
    The chain with the three corrections. Besides the clamps, an
    unarmoured target hit with the middle draw takes exactly the pre-armor
    damage when that is already in range.
   */
  function CalculateDamageCorrected(hit: Hit, draws: Draws): (damage: real)
    ensures damage >= MIN_DAMAGE
    ensures hit.target.maxHealth >= MIN_DAMAGE ==> damage <= hit.target.maxHealth
    ensures hit.target.maxHealth < MIN_DAMAGE ==> damage == MIN_DAMAGE
    ensures hit.target.armor == 0.0 && draws.variance == 0.5
        && MIN_DAMAGE <= PreArmorDamage(CollectCorrected(hit, draws.critical)) <= hit.target.maxHealth
        ==> damage == PreArmorDamage(CollectCorrected(hit, draws.critical))
  {
    ClampToHealth(UnclampedCorrected(PreArmorDamage(CollectCorrected(hit, draws.critical)), hit.target, draws.variance),
                  hit.target.maxHealth)
  }

  // ---------------------------------------------------------------- monotonicity

  /** Steps 6-11 never reverse the order of two non-negative inputs with ordered factors. */
  lemma ScaleChainMonotone(c1: real, c2: real, p1: real, p2: real, env: real, wc: real, pc: real,
                           e1: real, e2: real, s1: real, s2: real)
    requires 0.0 <= c1 <= c2 && 0.0 <= p1 <= p2
    requires env >= 0.0 && wc >= 0.0 && pc >= 0.0
    requires 0.0 <= e1 <= e2
    requires 0.0 <= s1 <= s2
    ensures 0.0 <= (c1 * p1 * env * wc * pc + e1 * ELEMENTAL_WEIGHT) * s1
    ensures (c1 * p1 * env * wc * pc + e1 * ELEMENTAL_WEIGHT) * s1
         <= (c2 * p2 * env * wc * pc + e2 * ELEMENTAL_WEIGHT) * s2
  {
    MulBothMonotone(c1, c2, p1, p2);
    MulBothMonotone(c1 * p1, c2 * p2, env, env);
    MulBothMonotone(c1 * p1 * env, c2 * p2 * env, wc, wc);
    MulBothMonotone(c1 * p1 * env * wc, c2 * p2 * env * wc, pc, pc);
    var u1, u2 := c1 * p1 * env * wc * pc + e1 * ELEMENTAL_WEIGHT, c2 * p2 * env * wc * pc + e2 * ELEMENTAL_WEIGHT;
    assert 0.0 <= u1 <= u2;
    MulBothMonotone(u1, u2, s1, s2);
  }

  /** A non-negative attack-damage attribute keeps steps 1-4 non-negative. */
  lemma BoostedNonNegative(m: ModifierSet)
    requires Plausible(m)
    requires m.attributeBonus >= -1.0
    ensures Boosted(m) >= 0.0
  {
    MulMonotone(m.attackSpeedModifier, 1.0, m.baseDamage);
  }

  /**
    A larger pre-armor damage never ends as a smaller final damage: as
    written up to 125 armor, with the game's armor formula up to 100.
   */
  lemma FinishMonotone(p1: real, p2: real, target: Actor, draw: Draw)
    requires 0.0 <= p1 <= p2
    ensures target.armor <= 125.0 ==>
      ClampToHealth(Unclamped(p1, target, draw), target.maxHealth)
      <= ClampToHealth(Unclamped(p2, target, draw), target.maxHealth)
    ensures target.armor <= 100.0 ==>
      ClampToHealth(UnclampedCorrected(p1, target, draw), target.maxHealth)
      <= ClampToHealth(UnclampedCorrected(p2, target, draw), target.maxHealth)
  {
    ArmorMonotoneInDamage(p1, p2, target.armor, target.armorToughness);
    if target.armor <= 125.0 {
      VarianceMonotone(ArmorReductionAsWritten(p1, target.armor, target.armorToughness),
                       ArmorReductionAsWritten(p2, target.armor, target.armorToughness), draw);
      ClampMonotone(Unclamped(p1, target, draw), Unclamped(p2, target, draw), target.maxHealth);
    }
    if target.armor <= 100.0 {
      VarianceMonotone(ArmorReduction(p1, target.armor, target.armorToughness),
                       ArmorReduction(p2, target.armor, target.armorToughness), draw);
      ClampMonotone(UnclampedCorrected(p1, target, draw), UnclampedCorrected(p2, target, draw), target.maxHealth);
    }
  }

  /** Steps 1-5 never reverse the order of two modifier sets whose inputs are ordered. */
  lemma CrittedMonotone(m1: ModifierSet, m2: ModifierSet)
    requires Plausible(m1)
    requires m1.attributeBonus >= -1.0
    requires m2.attackSpeedModifier == m1.attackSpeedModifier
    requires m1.baseDamage <= m2.baseDamage
    requires m1.attributeBonus <= m2.attributeBonus
    requires m1.enchantmentBonus <= m2.enchantmentBonus
    requires m1.isCritical ==> m2.isCritical
    ensures 0.0 <= Critted(m1) <= Critted(m2)
  {
    BoostedNonNegative(m1);
    MulMonotone(m1.attackSpeedModifier, m1.baseDamage, m2.baseDamage);
    var b1, b2 := Boosted(m1), Boosted(m2);
    assert 0.0 <= b1 <= b2;
    MulMonotone(CRITICAL_HIT_MULTIPLIER, b1, b2);
    MulMonotone(b2, 1.0, CRITICAL_HIT_MULTIPLIER);
  }

  /**
    Two modifier sets that agree on the speed and the three condition
    factors, with every other input at least as large in the second: the
    second never has the smaller pre-armor damage.
   */
  lemma PreArmorMonotone(m1: ModifierSet, m2: ModifierSet)
    requires Plausible(m1)
    requires m1.attributeBonus >= -1.0
    requires m2.attackSpeedModifier == m1.attackSpeedModifier
    requires m2.environmentalModifier == m1.environmentalModifier
    requires m2.weaponConditionModifier == m1.weaponConditionModifier
    requires m2.playerConditionModifier == m1.playerConditionModifier
    requires m1.baseDamage <= m2.baseDamage
    requires m1.attributeBonus <= m2.attributeBonus
    requires m1.enchantmentBonus <= m2.enchantmentBonus
    requires m1.isCritical ==> m2.isCritical
    requires m1.positionalModifier <= m2.positionalModifier
    requires m1.elementalDamage <= m2.elementalDamage
    requires m1.statusModifier <= m2.statusModifier
    ensures 0.0 <= PreArmorDamage(m1) <= PreArmorDamage(m2)
  {
    CrittedMonotone(m1, m2);
    ConditionedMonotone(m1, m2);
  }

  /** Steps 6-11 keep the order of two modifier sets whose steps 1-5 are already ordered. */
  lemma ConditionedMonotone(m1: ModifierSet, m2: ModifierSet)
    requires 0.0 <= Critted(m1) <= Critted(m2)
    requires 0.0 <= m1.positionalModifier <= m2.positionalModifier
    requires m1.environmentalModifier >= 0.0 && m1.weaponConditionModifier >= 0.0 && m1.playerConditionModifier >= 0.0
    requires m2.environmentalModifier == m1.environmentalModifier
    requires m2.weaponConditionModifier == m1.weaponConditionModifier
    requires m2.playerConditionModifier == m1.playerConditionModifier
    requires 0.0 <= m1.elementalDamage <= m2.elementalDamage
    requires 0.0 <= m1.statusModifier <= m2.statusModifier
    ensures 0.0 <= PreArmorDamage(m1) <= PreArmorDamage(m2)
  {
    var c1, c2 := Critted(m1), Critted(m2);
    var env, wc, pc := m1.environmentalModifier, m1.weaponConditionModifier, m1.playerConditionModifier;
    assert PreArmorDamage(m1)
        == (c1 * m1.positionalModifier * env * wc * pc + m1.elementalDamage * ELEMENTAL_WEIGHT) * m1.statusModifier;
    assert PreArmorDamage(m2)
        == (c2 * m2.positionalModifier * env * wc * pc + m2.elementalDamage * ELEMENTAL_WEIGHT) * m2.statusModifier;
    ScaleChainMonotone(c1, c2, m1.positionalModifier, m2.positionalModifier, env, wc, pc,
                       m1.elementalDamage, m2.elementalDamage, m1.statusModifier, m2.statusModifier);
  }

  /** For a mob attacker, the critical roll never lowers the damage, in either chain. */
  lemma CriticalNeverLowersDamage(hit: Hit, hitRoll: Draw, missRoll: Draw, varianceDraw: Draw)
    requires !IsPlayer(hit.attacker)
    requires hitRoll < MOB_CRITICAL_CHANCE <= missRoll
    requires hit.attacker.attackDamage >= 0.0
    ensures hit.target.armor <= 125.0 ==>
      CalculateDamage(hit, Draws(missRoll, varianceDraw)) <= CalculateDamage(hit, Draws(hitRoll, varianceDraw))
    ensures hit.target.armor <= 100.0 ==>
      CalculateDamageCorrected(hit, Draws(missRoll, varianceDraw))
      <= CalculateDamageCorrected(hit, Draws(hitRoll, varianceDraw))
  {
    var plain, crit := Collect(hit, missRoll), Collect(hit, hitRoll);
    assert crit == plain.(isCritical := true);
    PreArmorMonotone(plain, crit);
    FinishMonotone(PreArmorDamage(plain), PreArmorDamage(crit), hit.target, varianceDraw);
    var plainC, critC := CollectCorrected(hit, missRoll), CollectCorrected(hit, hitRoll);
    assert critC == plainC.(isCritical := true);
    PreArmorMonotone(plainC, critC);
    FinishMonotone(PreArmorDamage(plainC), PreArmorDamage(critC), hit.target, varianceDraw);
  }

  /** As written, a smaller angle between the attacker's bearing and the target's yaw never gives less damage. */
  lemma SmallerAngleNeverLowersDamage(hit: Hit, draws: Draws, near: real, far: real)
    requires AngleDifference(near, hit.target.yaw) <= AngleDifference(far, hit.target.yaw)
    requires hit.attacker.attackDamage >= 0.0
    requires hit.target.armor <= 125.0
    ensures CalculateDamage(hit.(scene := hit.scene.(bearing := far)), draws)
         <= CalculateDamage(hit.(scene := hit.scene.(bearing := near)), draws)
  {
    var mf := Collect(hit.(scene := hit.scene.(bearing := far)), draws.critical);
    var mn := Collect(hit.(scene := hit.scene.(bearing := near)), draws.critical);
    assert mn == mf.(positionalModifier := mn.positionalModifier);
    PositionalFactorMonotone(near, hit.target.yaw, far, hit.target.yaw);
    PreArmorMonotone(mf, mn);
    FinishMonotone(PreArmorDamage(mf), PreArmorDamage(mn), hit.target, draws.variance);
  }

  /** Corrected, the closer the attacker stands to the target's back, the more damage the hit does. */
  lemma BehindNeverLowersDamage(hit: Hit, draws: Draws, behind: real, front: real)
    requires AngleDifference(behind, BackBearing(hit.target.yaw)) <= AngleDifference(front, BackBearing(hit.target.yaw))
    requires hit.attacker.attackDamage >= 0.0
    requires hit.target.armor <= 100.0
    ensures CalculateDamageCorrected(hit.(scene := hit.scene.(bearing := front)), draws)
         <= CalculateDamageCorrected(hit.(scene := hit.scene.(bearing := behind)), draws)
  {
    var mf := CollectCorrected(hit.(scene := hit.scene.(bearing := front)), draws.critical);
    var mb := CollectCorrected(hit.(scene := hit.scene.(bearing := behind)), draws.critical);
    assert mb == mf.(positionalModifier := mb.positionalModifier);
    PositionalFactorMonotone(behind, BackBearing(hit.target.yaw), front, BackBearing(hit.target.yaw));
    PreArmorMonotone(mf, mb);
    FinishMonotone(PreArmorDamage(mf), PreArmorDamage(mb), hit.target, draws.variance);
  }

  /** Corrected, a stronger resistance effect on the target never raises the damage, and neither does having one. */
  lemma ResistanceNeverRaisesDamage(hit: Hit, draws: Draws, lo: int, hi: int)
    requires -1 <= lo <= hi
    requires hit.attacker.attackDamage >= 0.0
    requires hit.target.armor <= 100.0
    ensures CalculateDamageCorrected(hit.(target := hit.target.(effects := hit.target.effects[Resistance := hi])), draws)
         <= CalculateDamageCorrected(hit.(target := hit.target.(effects := hit.target.effects[Resistance := lo])), draws)
    ensures CalculateDamageCorrected(hit.(target := hit.target.(effects := hit.target.effects[Resistance := lo])), draws)
         <= CalculateDamageCorrected(hit.(target := hit.target.(effects := hit.target.effects - {Resistance})), draws)
  {
    var th := hit.target.(effects := hit.target.effects[Resistance := hi]);
    var tl := hit.target.(effects := hit.target.effects[Resistance := lo]);
    var tn := hit.target.(effects := hit.target.effects - {Resistance});
    var mh, ml, mn := CollectCorrected(hit.(target := th), draws.critical),
                      CollectCorrected(hit.(target := tl), draws.critical),
                      CollectCorrected(hit.(target := tn), draws.critical);
    assert ResistantToFire(th) == ResistantToFire(tl) == ResistantToFire(tn);
    assert ml == mh.(statusModifier := ml.statusModifier);
    assert mn == ml.(statusModifier := mn.statusModifier);
    ResistanceNeverRaisesFactor(hit.attacker.effects, hit.target.effects, lo, hi);
    PreArmorMonotone(mh, ml);
    PreArmorMonotone(ml, mn);
    FinishMonotone(PreArmorDamage(mh), PreArmorDamage(ml), th, draws.variance);
    FinishMonotone(PreArmorDamage(ml), PreArmorDamage(mn), tl, draws.variance);
  }

  /** A larger attack-damage modifier on the weapon never lowers the damage, in either chain. */
  lemma WeaponDamageNeverLowersDamage(hit: Hit, draws: Draws, d1: real, d2: real)
    requires hit.weapon.Item? && d1 <= d2
    requires hit.attacker.attackDamage >= 0.0
    ensures hit.target.armor <= 125.0 ==>
      CalculateDamage(hit.(weapon := hit.weapon.(damageBonus := d1)), draws)
      <= CalculateDamage(hit.(weapon := hit.weapon.(damageBonus := d2)), draws)
    ensures hit.target.armor <= 100.0 ==>
      CalculateDamageCorrected(hit.(weapon := hit.weapon.(damageBonus := d1)), draws)
      <= CalculateDamageCorrected(hit.(weapon := hit.weapon.(damageBonus := d2)), draws)
  {
    var h1, h2 := hit.(weapon := hit.weapon.(damageBonus := d1)), hit.(weapon := hit.weapon.(damageBonus := d2));
    BaseDamageMonotone(hit.weapon, d1, d2);
    var m1, m2 := Collect(h1, draws.critical), Collect(h2, draws.critical);
    assert m2 == m1.(baseDamage := m2.baseDamage);
    PreArmorMonotone(m1, m2);
    FinishMonotone(PreArmorDamage(m1), PreArmorDamage(m2), hit.target, draws.variance);
    var c1, c2 := CollectCorrected(h1, draws.critical), CollectCorrected(h2, draws.critical);
    assert c2 == c1.(baseDamage := c2.baseDamage);
    PreArmorMonotone(c1, c2);
    FinishMonotone(PreArmorDamage(c1), PreArmorDamage(c2), hit.target, draws.variance);
  }

  /** A larger attack-damage attribute on the attacker never lowers the damage, in either chain. */
  lemma AttackDamageNeverLowersDamage(hit: Hit, draws: Draws, a1: real, a2: real)
    requires 0.0 <= a1 <= a2
    ensures hit.target.armor <= 125.0 ==>
      CalculateDamage(hit.(attacker := hit.attacker.(attackDamage := a1)), draws)
      <= CalculateDamage(hit.(attacker := hit.attacker.(attackDamage := a2)), draws)
    ensures hit.target.armor <= 100.0 ==>
      CalculateDamageCorrected(hit.(attacker := hit.attacker.(attackDamage := a1)), draws)
      <= CalculateDamageCorrected(hit.(attacker := hit.attacker.(attackDamage := a2)), draws)
  {
    var h1, h2 := hit.(attacker := hit.attacker.(attackDamage := a1)), hit.(attacker := hit.attacker.(attackDamage := a2));
    var m1, m2 := Collect(h1, draws.critical), Collect(h2, draws.critical);
    assert m2 == m1.(attributeBonus := m2.attributeBonus);
    PreArmorMonotone(m1, m2);
    FinishMonotone(PreArmorDamage(m1), PreArmorDamage(m2), hit.target, draws.variance);
    var c1, c2 := CollectCorrected(h1, draws.critical), CollectCorrected(h2, draws.critical);
    assert c2 == c1.(attributeBonus := c2.attributeBonus);
    PreArmorMonotone(c1, c2);
    FinishMonotone(PreArmorDamage(c1), PreArmorDamage(c2), hit.target, draws.variance);
  }

  // ---------------------------------------------------------------- an end-to-end hit

  /** Quiet conditions: bare hands, no bonus, penalty or effect, no armor. */
  predicate NeutralHit(hit: Hit) {
    && hit.weapon.Empty?
    && IsPlayer(hit.attacker)
    && hit.attacker.player.value.foodLevel >= 12
    && hit.attacker.player.value.exhaustion <= 3.0
    && hit.attacker.attackDamage == 1.0
    && hit.attacker.onGround
    && !InRain(hit.scene.world) && !Submerged(hit.attacker) && !HighUp(hit.attacker)
    && !VeryHot(hit.scene.world) && !InDarkness(hit.attacker, hit.scene.world)
    && NoListedEffects(hit.attacker.effects, hit.target.effects)
    && hit.target.armor == 0.0 && hit.target.armorToughness == 0.0
  }

  /** Under quiet conditions every modifier is neutral except the positional 0.95. */
  lemma NeutralModifiers(hit: Hit, critDraw: Draw)
    requires NeutralHit(hit)
    requires AngleDifference(hit.scene.bearing, hit.target.yaw) >= 3.0 * PI / 4.0
    ensures Collect(hit, critDraw)
         == ModifierSet(1.0, 1.0, 0.0, 0.0, false, FRONTAL_ATTACK_PENALTY, 1.0, 1.0, 1.0, 0.0, 1.0)
  {
    assert !IsCritical(hit.attacker, critDraw);
    assert PlayerCondition(hit.attacker) == 1.0;
    assert EnvironmentalFactor(hit.attacker, hit.scene.world) == 1.0;
    assert StatusFactorAsWritten(hit.attacker.effects, hit.target.effects) == 1.0;
  }

  /**
    A bare-handed, well-fed player hitting an unarmoured target in the 0.95
    tier with the middle variance draw: 0.95 before armor, which the
    source's armor term turns into 0.96805.
   */
  lemma QuietBareHandedHit(hit: Hit, draws: Draws)
    requires NeutralHit(hit)
    requires AngleDifference(hit.scene.bearing, hit.target.yaw) >= 3.0 * PI / 4.0
    requires draws.variance == 0.5
    requires hit.target.maxHealth >= 1.0
    ensures PreArmorDamage(Collect(hit, draws.critical)) == 0.95
    ensures CalculateDamage(hit, draws) == 0.96805
  {
    var m := Collect(hit, draws.critical);
    NeutralModifiers(hit, draws.critical);
    assert PreArmorDamage(m) == 0.95;
    ZeroArmorRaisesDamageAsWritten();
    var armored := ArmorReductionAsWritten(0.95, hit.target.armor, hit.target.armorToughness);
    assert armored == 0.96805;
    assert ApplyVariance(armored, draws.variance) == 0.96805;
  }

  /**
    Corrected, a quiet hit within 45 degrees of the target's front deals
    exactly 0.95. That is a different bearing from the source's 0.95 tier,
    which is a flank (see PositionalTiersMisplaced).
   */
  lemma QuietBareHandedHitCorrected(hit: Hit, draws: Draws)
    requires NeutralHit(hit)
    requires AngleDifference(hit.scene.bearing, BackBearing(hit.target.yaw)) >= 3.0 * PI / 4.0
    requires draws.variance == 0.5
    requires hit.target.maxHealth >= 1.0
    ensures CalculateDamageCorrected(hit, draws) == 0.95
  {
    var m := CollectCorrected(hit, draws.critical);
    assert !IsCritical(hit.attacker, draws.critical);
    assert PlayerCondition(hit.attacker) == 1.0;
    assert EnvironmentalFactor(hit.attacker, hit.scene.world) == 1.0;
    assert m == ModifierSet(1.0, 1.0, 0.0, 0.0, false, FRONTAL_ATTACK_PENALTY, 1.0, 1.0, 1.0, 0.0, 1.0);
    assert PreArmorDamage(m) == 0.95;
  }

  /**
    The quiet bare-handed hit straight in front of the target: as written it
    falls in the 1.08 tier, which the source's armor term turns into 1.103328;
    corrected it deals 0.95.
   */
  lemma QuietHeadOnHit(hit: Hit, draws: Draws)
    requires NeutralHit(hit)
    requires hit.scene.bearing == FacingBearing(hit.target.yaw)
    requires draws.variance == 0.5
    requires hit.target.maxHealth >= 2.0
    ensures PreArmorDamage(Collect(hit, draws.critical)) == 1.08
    ensures CalculateDamage(hit, draws) == 1.103328
    ensures CalculateDamageCorrected(hit, draws) == 0.95
  {
    PositionalTiersMisplaced(hit.target.yaw);
    PositionalFactorCorrectedFollowsFacing(hit.target.yaw);
    var m := Collect(hit, draws.critical);
    assert !IsCritical(hit.attacker, draws.critical);
    assert PlayerCondition(hit.attacker) == 1.0;
    assert EnvironmentalFactor(hit.attacker, hit.scene.world) == 1.0;
    assert StatusFactorAsWritten(hit.attacker.effects, hit.target.effects) == 1.0;
    assert m == ModifierSet(1.0, 1.0, 0.0, 0.0, false, SIDE_MULTIPLIER, 1.0, 1.0, 1.0, 0.0, 1.0);
    assert PreArmorDamage(m) == 1.08;
    var armored := ArmorReductionAsWritten(1.08, hit.target.armor, hit.target.armorToughness);
    assert AbsorbedAsWritten(1.08, 0.0, 0.0) == -0.54;
    assert armored == 1.103328;
    assert ApplyVariance(armored, draws.variance) == 1.103328;
    var c := CollectCorrected(hit, draws.critical);
    assert c == ModifierSet(1.0, 1.0, 0.0, 0.0, false, FRONTAL_ATTACK_PENALTY, 1.0, 1.0, 1.0, 0.0, 1.0);
    assert PreArmorDamage(c) == 0.95;
  }

  // ---------------------------------------------------------------- DPS

  /** calculateDPS: base damage times the raw attack speed (4.0 plus the item's modifiers). */
  function CalculateDps(w: Weapon): (dps: real)
    ensures w.Empty? ==> dps == 4.0
    ensures w.Item? && w.damageBonus <= 1.0 ==> dps == AttackSpeed(w)
  {
    BaseDamage(w) * AttackSpeed(w)
  }

  /** For a positive b, the product b * s is at most b * t exactly when s is at most t. */
  lemma ProductAtMost(b: real, s: real, t: real, d: real)
    requires b > 0.0 && d == b * s
    ensures d <= b * t <==> s <= t
  {
    if s <= t {
      MulMonotone(b, s, t);
    } else {
      MulPositive(b, s - t);
      assert b * s - b * t == b * (s - t);
    }
  }

  /** For a positive b, the product b * s is at least b * t exactly when s is at least t. */
  lemma ProductAtLeast(b: real, s: real, t: real, d: real)
    requires b > 0.0 && d == b * s
    ensures d >= b * t <==> s >= t
  {
    if s >= t {
      MulMonotone(b, t, s);
    } else {
      MulPositive(b, t - s);
      assert b * t - b * s == b * (t - s);
    }
  }

  /** Slow weapons, and only they, have a DPS estimate at most their base damage. */
  lemma DpsSlowTier(w: Weapon)
    requires w.Item?
    ensures SpeedFactor(w) == 1.15 <==> CalculateDps(w) <= BaseDamage(w) * SLOW_ATTACK_THRESHOLD
  {
    ProductAtMost(BaseDamage(w), AttackSpeed(w), SLOW_ATTACK_THRESHOLD, CalculateDps(w));
  }

  /** Fast weapons, and only they, have a DPS estimate at least 2.5 times their base damage. */
  lemma DpsFastTier(w: Weapon)
    requires w.Item?
    ensures SpeedFactor(w) == 0.85 <==> CalculateDps(w) >= BaseDamage(w) * FAST_ATTACK_THRESHOLD
  {
    ProductAtLeast(BaseDamage(w), AttackSpeed(w), FAST_ATTACK_THRESHOLD, CalculateDps(w));
  }

  // ---------------------------------------------------------------- breakdown

  /** The diagnostic record: every modifier and a final damage. */
  datatype DamageBreakdown = DamageBreakdown(modifiers: ModifierSet, finalDamage: real)

  /** totalBeforeArmor as the breakdown computes it: all three bonuses unweighted, inside the critical multiplier. */
  function BreakdownPreArmor(m: ModifierSet): real {
    var total := m.baseDamage * m.attackSpeedModifier + m.attributeBonus + m.enchantmentBonus + m.elementalDamage;
    var critted := if m.isCritical then total * CRITICAL_HIT_MULTIPLIER else total;
    critted * (m.positionalModifier * m.environmentalModifier * m.weaponConditionModifier
               * m.playerConditionModifier * m.statusModifier)
  }

  /** The multiplier the critical decision contributes. */
  function CriticalFactor(m: ModifierSet): real {
    if m.isCritical then CRITICAL_HIT_MULTIPLIER else 1.0
  }

  /** The product of the four condition factors. */
  function ConditionProduct(m: ModifierSet): real {
    m.positionalModifier * m.environmentalModifier * m.weaponConditionModifier * m.playerConditionModifier
  }

  /**
    The breakdown's pre-armor damage exceeds the pipeline's by the dropped
    weights of the attribute and enchantment bonuses, and by the elemental
    bonus counted once through the critical and condition factors instead
    of at weight 0.6.
   */
  lemma BreakdownPreArmorGap(m: ModifierSet)
    ensures BreakdownPreArmor(m) - PreArmorDamage(m)
         == (0.5 * m.attributeBonus + 0.2 * m.enchantmentBonus) * CriticalFactor(m) * ConditionProduct(m) * m.statusModifier
          + m.elementalDamage * (CriticalFactor(m) * ConditionProduct(m) - ELEMENTAL_WEIGHT) * m.statusModifier
  {
  }

  /** With no attribute, enchantment or fire bonus, the breakdown's total before armor is the pipeline's. */
  lemma BreakdownMatchesWithoutBonuses(m: ModifierSet)
    ensures m.attributeBonus == 0.0 && m.enchantmentBonus == 0.0 && m.elementalDamage == 0.0
      ==> BreakdownPreArmor(m) == PreArmorDamage(m)
  {
    BreakdownPreArmorGap(m);
    if m.attributeBonus == 0.0 && m.enchantmentBonus == 0.0 && m.elementalDamage == 0.0 {
      var k := CriticalFactor(m) * ConditionProduct(m);
      assert (0.5 * m.attributeBonus + 0.2 * m.enchantmentBonus) * k * m.statusModifier == 0.0;
      assert m.elementalDamage * (k - ELEMENTAL_WEIGHT) * m.statusModifier == 0.0;
    }
  }

  /** getDamageBreakdown as written, with its own draws. */
  function GetDamageBreakdown(hit: Hit, draws: Draws): (b: DamageBreakdown)
    ensures b.modifiers == Collect(hit, draws.critical)
    ensures b.modifiers.attributeBonus == 0.0 && b.modifiers.enchantmentBonus == 0.0 && b.modifiers.elementalDamage == 0.0
      ==> b.finalDamage == Unclamped(PreArmorDamage(Collect(hit, draws.critical)), hit.target, draws.variance)
  {
    var m := Collect(hit, draws.critical);
    BreakdownMatchesWithoutBonuses(m);
    DamageBreakdown(m, Unclamped(BreakdownPreArmor(m), hit.target, draws.variance))
  }

  /** Without bonuses and clamps the breakdown agrees with the pipeline. */
  lemma BreakdownAgreesWithoutBonuses(hit: Hit, draws: Draws)
    requires hit.attacker.attackDamage == 1.0
    requires EnchantmentBonus(hit.weapon, hit.target) == 0.0
    requires ElementalBonus(hit.weapon, hit.target) == 0.0
    requires MIN_DAMAGE <= Unclamped(PreArmorDamage(Collect(hit, draws.critical)), hit.target, draws.variance)
                       <= hit.target.maxHealth
    ensures GetDamageBreakdown(hit, draws).finalDamage == CalculateDamage(hit, draws)
  {
  }

  /** A zombie (attack damage 3) hitting bare-handed: the breakdown reports 3 before armor, the pipeline 2. */
  lemma BreakdownDisagreesWithPipeline(hit: Hit, draws: Draws)
    requires hit.weapon.Empty?
    requires !IsPlayer(hit.attacker) && hit.attacker.attackDamage == 3.0
    requires MOB_CRITICAL_CHANCE <= draws.critical
    requires PositionalFactor(hit.scene.bearing, hit.target.yaw) == SIDE_MULTIPLIER
    requires EnvironmentalFactor(hit.attacker, hit.scene.world) == 1.0
    requires NoListedEffects(hit.attacker.effects, hit.target.effects)
    ensures PreArmorDamage(GetDamageBreakdown(hit, draws).modifiers) == 2.0 * SIDE_MULTIPLIER
    ensures BreakdownPreArmor(GetDamageBreakdown(hit, draws).modifiers) == 3.0 * SIDE_MULTIPLIER
  {
    var m := Collect(hit, draws.critical);
    assert !m.isCritical;
  }

  /**
    totalBeforeArmor as the breakdown should compute it from its own
    fields: the attribute and enchantment bonuses at their weights inside
    the critical multiplier, the condition factors, then the fire bonus at
    weight 0.6 added outside them, and the status factor over everything.
   */
  function CorrectedBreakdownPreArmor(m: ModifierSet): real {
    var total := m.baseDamage * m.attackSpeedModifier
                 + ATTRIBUTE_WEIGHT * m.attributeBonus + ENCHANTMENT_WEIGHT * m.enchantmentBonus;
    (total * CriticalFactor(m) * ConditionProduct(m) + ELEMENTAL_WEIGHT * m.elementalDamage) * m.statusModifier
  }

  /** The corrected breakdown formula and the pipeline's step-by-step products are the same number. */
  lemma CorrectedBreakdownIsPreArmor(m: ModifierSet)
    ensures CorrectedBreakdownPreArmor(m) == PreArmorDamage(m)
  {
    var total := m.baseDamage * m.attackSpeedModifier
                 + ATTRIBUTE_WEIGHT * m.attributeBonus + ENCHANTMENT_WEIGHT * m.enchantmentBonus;
    assert total == Boosted(m);
    assert total * CriticalFactor(m) == Critted(m);
    var c := Critted(m);
    assert c * ConditionProduct(m)
        == c * m.positionalModifier * m.environmentalModifier * m.weaponConditionModifier * m.playerConditionModifier;
  }

  /** The corrected breakdown: the record's modifiers, and a final damage that is calculateDamage's for the same draws. */
  function ConsistentBreakdown(hit: Hit, draws: Draws): (b: DamageBreakdown)
    ensures b.modifiers == GetDamageBreakdown(hit, draws).modifiers
    ensures b.finalDamage == CalculateDamage(hit, draws)
  {
    var m := Collect(hit, draws.critical);
    CorrectedBreakdownIsPreArmor(m);
    DamageBreakdown(m, ClampToHealth(Unclamped(CorrectedBreakdownPreArmor(m), hit.target, draws.variance),
                                     hit.target.maxHealth))
  }

  // ---------------------------------------------------------------- hurt event

  /** Where the damage came from: a living entity, or anything else (a block, a fall, an arrow with no shooter). */
  datatype Source = NoLivingSource | LivingSource(attacker: Actor)

  /** A hurt event: the entity hit, the source, and the amount the engine proposes. */
  datatype HurtEvent = HurtEvent(target: Actor, source: Source, amount: real)

  /** The weapon the handler passes on: a player's main hand, bare hands for everything else. */
  function WeaponFor(attacker: Actor): (w: Weapon)
    ensures !IsPlayer(attacker) ==> w.Empty?
    ensures IsPlayer(attacker) ==> w == attacker.mainHand
  {
    if IsPlayer(attacker) then attacker.mainHand else Empty
  }

  /** onLivingHurt: the amount the event carries after the handler ran. */
  function OnLivingHurt(event: HurtEvent, scene: Scene, draws: Draws): (amount: real)
    ensures !event.source.LivingSource? ==> amount == event.amount
    ensures event.amount <= 0.0 ==> amount == event.amount
    ensures event.source.LivingSource? && event.amount > 0.0 ==>
      amount >= MIN_DAMAGE
      && (event.target.maxHealth >= MIN_DAMAGE ==> amount <= event.target.maxHealth)
  {
    match event.source
    case NoLivingSource => event.amount
    case LivingSource(attacker) =>
      if event.amount <= 0.0 then event.amount
      else CalculateDamage(Hit(attacker, event.target, WeaponFor(attacker), scene), draws)
  }

  /**
    A recalculated hit ignores the proposed amount, and the handler passes
    bare hands for a mob, so a mob's main-hand field does not reach the
    damage. The held item still counts through the attack-damage attribute
    the engine supplies in the snapshot.
   */
  lemma HandlerIgnoresAmountAndMobWeapons(event: HurtEvent, scene: Scene, draws: Draws, amount: real, held: Weapon)
    requires event.source.LivingSource?
    requires event.amount > 0.0 && amount > 0.0
    ensures OnLivingHurt(event.(amount := amount), scene, draws) == OnLivingHurt(event, scene, draws)
    ensures !IsPlayer(event.source.attacker) ==>
      OnLivingHurt(event.(source := LivingSource(event.source.attacker.(mainHand := held))), scene, draws)
      == OnLivingHurt(event, scene, draws)
  {
  }
}

=== FILE: reals.dfy ===
/** Small helpers over Dafny's exact `real`s, standing in for java.lang.Math. */
module RealMath {

  /** Math.abs */
  function Abs(x: real): (r: real)
    ensures r >= 0.0
    ensures r == x || r == -x
  {
    if x < 0.0 then -x else x
  }

  /** Math.min */
  function Min(a: real, b: real): (r: real)
    ensures r <= a && r <= b
    ensures r == a || r == b
  {
    if a <= b then a else b
  }

  /** Math.max */
  function Max(a: real, b: real): (r: real)
    ensures r >= a && r >= b
    ensures r == a || r == b
  {
    if a >= b then a else b
  }

  /** Math.max with a fixed bound preserves order. */
  lemma MaxMonotone(a: real, x: real, y: real)
    requires x <= y
    ensures Max(a, x) <= Max(a, y)
  {
  }

  /** Mth.clamp: the lower bound below it, otherwise Math.min with the upper bound. */
  function Clamp(x: real, lo: real, hi: real): (r: real)
    ensures lo <= hi ==> lo <= r <= hi
    ensures lo <= x <= hi ==> r == x
    ensures r == lo || r == hi || r == x
  {
    if x < lo then lo else Min(x, hi)
  }

  /** With ordered bounds, raising the value or the lower bound never lowers the clamp. */
  lemma ClampOrder(x1: real, x2: real, lo1: real, lo2: real, hi: real)
    requires x1 <= x2 && lo1 <= lo2 <= hi
    ensures Clamp(x1, lo1, hi) <= Clamp(x2, lo2, hi)
  {
  }

  /** Scaling by a non-negative factor preserves order. */
  lemma MulMonotone(a: real, x: real, y: real)
    requires a >= 0.0
    requires x <= y
    ensures a * x <= a * y
    ensures x * a <= y * a
  {
    assert a * y - a * x == a * (y - x);
  }

  /** Products of ordered non-negative reals are ordered. */
  lemma MulBothMonotone(a1: real, a2: real, b1: real, b2: real)
    requires 0.0 <= a1 <= a2 && 0.0 <= b1 <= b2
    ensures 0.0 <= a1 * b1 <= a2 * b2
  {
    MulMonotone(b1, a1, a2);
    MulMonotone(a2, b1, b2);
    MulMonotone(a1, 0.0, b1);
  }

  /** A non-negative real times a non-positive one is non-positive. */
  lemma MulNonPositive(a: real, f: real)
    requires a >= 0.0 && f <= 0.0
    ensures a * f <= 0.0
  {
    MulMonotone(a, f, 0.0);
  }

  /** A product of two positive reals is positive. */
  lemma MulPositive(x: real, y: real)
    requires x > 0.0 && y > 0.0
    ensures x * y > 0.0
  {
  }

  /** A quotient of two positive reals is positive. */
  lemma DivPositive(x: real, y: real)
    requires x > 0.0 && y > 0.0
    ensures x / y > 0.0
  {
  }

  /** Dividing by a positive real preserves order. */
  lemma DivMonotone(x1: real, x2: real, y: real)
    requires x1 <= x2 && y > 0.0
    ensures x1 / y <= x2 / y
  {
  }

  /** Dividing a non-negative real by a larger positive real gives a smaller quotient. */
  lemma DivAntitone(x: real, y1: real, y2: real)
    requires x >= 0.0 && 0.0 < y1 <= y2
    ensures x / y2 <= x / y1
  {
  }
}

=== FILE: snapshot.dfy ===
/**
  The momentary state of attacker, target, weapon and world that the damage
  pipeline reads. Every engine lookup (attribute sums, enchantment levels,
  mob type, biome temperature, light level, atan2 of the positions) appears
  here as a plain field whose value the engine supplies.
 */
module Snapshot {

  datatype Option<+T> = None | Some(value: T)

  /** One value of the engine's uniform random source: nextFloat() lies in [0, 1). */
  type Draw = r: real | 0.0 <= r < 1.0

  /** Attribute values the engine keeps non-negative (armor, armor toughness). */
  type NonNegReal = r: real | r >= 0.0

  /** The status effects the pipeline asks about. */
  datatype EffectKind =
    | Strength        // MobEffects.DAMAGE_BOOST
    | Weakness
    | MiningFatigue   // MobEffects.DIG_SLOWDOWN
    | Haste           // MobEffects.DIG_SPEED
    | Resistance      // MobEffects.DAMAGE_RESISTANCE
    | Wither
    | Poison
    | Blindness
    | WaterBreathing
    | NightVision
    | FireResistance

  /** The enchantments the pipeline asks about. */
  datatype Enchantment = Sharpness | Smite | BaneOfArthropods | FireAspect

  /** The engine's MobType classification of an entity. */
  datatype MobType = Undefined | Undead | Arthropod | Illager | WaterMob

  datatype Vec3 = Vec3(x: real, y: real, z: real)

  /** The player-only part of an actor: food data and attack cooldown. */
  datatype PlayerState = PlayerState(
    foodLevel: int,             // FoodData.getFoodLevel(), 0..20
    exhaustion: real,           // FoodData.getExhaustionLevel()
    attackStrengthScale: real   // getAttackStrengthScale(0.5)
  )

  /**
    The item in hand. `Empty` is ItemStack.EMPTY (bare hands), a valid state.
    `damageBonus` and `speedBonus` are the sums of the item's main-hand
    ATTACK_DAMAGE and ATTACK_SPEED attribute modifiers; `enchantments` maps an
    enchantment to its level (absent means level 0).
   */
  datatype Weapon =
    | Empty
    | Item(
        damageBonus: real,
        speedBonus: real,
        damageable: bool,       // isDamageableItem()
        maxDurability: int,     // getMaxDamage()
        wear: int,              // getDamageValue()
        enchantments: map<Enchantment, int>)

  /**
    A living entity. `effects` maps each active effect to its amplifier;
    `yaw` is the engine's yaw (getYRot) converted to radians; `typeName` is
    the entity type's printed name; `player` is present for players only.
   */
  datatype Actor = Actor(
    position: Vec3,
    yaw: real,
    attackDamage: real,          // getAttributeValue(ATTACK_DAMAGE)
    armor: NonNegReal,           // getAttributeValue(ARMOR)
    armorToughness: NonNegReal,  // getAttributeValue(ARMOR_TOUGHNESS)
    maxHealth: real,
    effects: map<EffectKind, int>,
    onGround: bool,
    inWater: bool,
    fallDistance: real,
    riding: bool,                // getVehicle() != null
    mobType: MobType,
    fireImmune: bool,
    typeName: string,
    mainHand: Weapon,
    player: Option<PlayerState>)

  /** The world at the attacker's block position. */
  datatype World = World(
    raining: bool,               // level.isRaining()
    skyVisible: bool,            // level.canSeeSky(pos)
    biomeTemperature: real,      // biome.getBaseTemperature()
    blockLight: int)             // getBrightness(LightLayer.BLOCK, pos)

  /**
    What the engine computes from the two positions: the world around the
    attacker and `bearing`, the value of atan2(attacker.z - target.z,
    attacker.x - target.x) in radians.
   */
  datatype Scene = Scene(world: World, bearing: real)

  /** One melee hit: who strikes whom with what, and where. */
  datatype Hit = Hit(attacker: Actor, target: Actor, weapon: Weapon, scene: Scene)

  /** The random draws of one calculation: the mob critical roll and the variance roll. */
  datatype Draws = Draws(critical: Draw, variance: Draw)

  predicate IsPlayer(a: Actor) {
    a.player.Some?
  }

  /** EnchantmentHelper.getTagEnchantmentLevel: 0 for bare hands and for absent enchantments. */
  function EnchantmentLevel(w: Weapon, e: Enchantment): int {
    if w.Item? && e in w.enchantments then w.enchantments[e] else 0
  }
}

=== FILE: status_effects.dfy ===
/**
  getStatusEffectModifier: a running modifier that starts at 1.0 and is
  changed, in source order, by the attacker's strength, weakness, mining
  fatigue and haste and by the target's resistance, wither and poison; the
  result is floored at 0.45.

  Each effect is one Stage (add a term or scale by a factor), so the factor
  is a fold over the stage list. As written, the scaling factors of mining
  fatigue and resistance turn negative at high amplifiers and two negative
  values multiply into a bonus; StatusFactorAsWritten keeps that behaviour,
  and StatusFactor floors the running modifier at 0 after every stage.
 */
module StatusEffects {
  import opened RealMath
  import opened Snapshot

  /** The "minimum 45% damage" floor. */
  const STATUS_FLOOR: real := 0.45

  /** One change to the running modifier. */
  datatype Stage = Add(delta: real) | Scale(factor: real)

  /** The change an effect with the given amplifier makes. */
  function StageFor(kind: EffectKind, amplifier: int): Stage {
    var n := (amplifier + 1) as real;
    match kind
    case Strength => Add(0.15 * n)
    case Weakness => Add(-(0.25 * n))
    case MiningFatigue => Scale(1.0 - 0.1 * n)
    case Haste => Add(0.05 * n)
    case Resistance => Scale(1.0 - 0.15 * n)
    case Wither => Scale(1.1)
    case Poison => Scale(1.05)
    case _ => Add(0.0)   // the factor never asks about the other effects
  }

  /** The stage of one effect if the actor has it (hasEffect / getEffect). */
  function Part(effects: map<EffectKind, int>, kind: EffectKind): seq<Stage> {
    if kind in effects then [StageFor(kind, effects[kind])] else []
  }

  function AttackerStages(attacker: map<EffectKind, int>): seq<Stage> {
    Part(attacker, Strength) + Part(attacker, Weakness) + Part(attacker, MiningFatigue) + Part(attacker, Haste)
  }

  function TargetStages(target: map<EffectKind, int>): seq<Stage> {
    Part(target, Resistance) + Part(target, Wither) + Part(target, Poison)
  }

  /** All stages, in the order the source applies them. */
  function Stages(attacker: map<EffectKind, int>, target: map<EffectKind, int>): seq<Stage> {
    AttackerStages(attacker) + TargetStages(target)
  }

  /** None of the seven effects the factor looks at is active. */
  predicate NoListedEffects(attacker: map<EffectKind, int>, target: map<EffectKind, int>) {
    && Strength !in attacker && Weakness !in attacker
    && MiningFatigue !in attacker && Haste !in attacker
    && Resistance !in target && Wither !in target && Poison !in target
  }

  function Step(m: real, s: Stage): real {
    match s
    case Add(d) => m + d
    case Scale(f) => m * f
  }

  /** The stages applied as the source applies them. */
  function Run(m: real, stages: seq<Stage>): real
    decreases |stages|
  {
    if stages == [] then m else Run(Step(m, stages[0]), stages[1..])
  }

  /** The stages applied with the running modifier floored at 0 after each one. */
  function RunClamped(m: real, stages: seq<Stage>): (r: real)
    ensures m >= 0.0 ==> r >= 0.0
    decreases |stages|
  {
    if stages == [] then m else RunClamped(Max(0.0, Step(m, stages[0])), stages[1..])
  }

  /** getStatusEffectModifier exactly as the source computes it. */
  function StatusFactorAsWritten(attacker: map<EffectKind, int>, target: map<EffectKind, int>): (factor: real)
    ensures factor >= STATUS_FLOOR
    ensures NoListedEffects(attacker, target) ==> factor == 1.0
  {
    Max(STATUS_FLOOR, Run(1.0, Stages(attacker, target)))
  }

  /** The status-effect factor with the running modifier kept non-negative. */
  function StatusFactor(attacker: map<EffectKind, int>, target: map<EffectKind, int>): (factor: real)
    ensures factor >= STATUS_FLOOR
    ensures NoListedEffects(attacker, target) ==> factor == 1.0
  {
    Max(STATUS_FLOOR, RunClamped(1.0, Stages(attacker, target)))
  }

  // ---------------------------------------------------------------- source order

  /** With all seven effects active, the factor is the source's expression, evaluated left to right. */
  lemma StatusClosedForm(attacker: map<EffectKind, int>, target: map<EffectKind, int>)
    requires Strength in attacker && Weakness in attacker && MiningFatigue in attacker && Haste in attacker
    requires Resistance in target && Wither in target && Poison in target
    ensures StatusFactorAsWritten(attacker, target) ==
      Max(STATUS_FLOOR,
        ((1.0 + 0.15 * (attacker[Strength] + 1) as real
              - 0.25 * (attacker[Weakness] + 1) as real)
           * (1.0 - 0.1 * (attacker[MiningFatigue] + 1) as real)
           + 0.05 * (attacker[Haste] + 1) as real)
         * (1.0 - 0.15 * (target[Resistance] + 1) as real)
         * 1.1 * 1.05)
  {
    var s1 := StageFor(Strength, attacker[Strength]);
    var s2 := StageFor(Weakness, attacker[Weakness]);
    var s3 := StageFor(MiningFatigue, attacker[MiningFatigue]);
    var s4 := StageFor(Haste, attacker[Haste]);
    var s5 := StageFor(Resistance, target[Resistance]);
    var s6 := StageFor(Wither, target[Wither]);
    var s7 := StageFor(Poison, target[Poison]);
    assert Stages(attacker, target) == [s1, s2, s3, s4] + [s5, s6, s7];
    RunAppend(1.0, [s1, s2, s3, s4], [s5, s6, s7]);
    RunAppend(1.0, [s1, s2], [s3, s4]);
    assert [s1, s2] + [s3, s4] == [s1, s2, s3, s4];
    RunPair(1.0, s1, s2);
    RunPair(Run(1.0, [s1, s2]), s3, s4);
    var m4 := Run(1.0, [s1, s2, s3, s4]);
    RunAppend(m4, [s5], [s6, s7]);
    assert [s5] + [s6, s7] == [s5, s6, s7];
    RunPair(m4, s5, s6);
    RunSingle(m4, s5);
    RunPair(Step(m4, s5), s6, s7);
  }

  /**
    Strength and weakness on the attacker and poison on the target, nothing
    else: both terms are added before the poison factor scales the sum.
   */
  lemma StatusStrengthWeaknessPoison(attacker: map<EffectKind, int>, target: map<EffectKind, int>)
    requires Strength in attacker && Weakness in attacker
    requires MiningFatigue !in attacker && Haste !in attacker
    requires Resistance !in target && Wither !in target && Poison in target
    ensures StatusFactorAsWritten(attacker, target) ==
      Max(STATUS_FLOOR,
        (1.0 + 0.15 * (attacker[Strength] + 1) as real - 0.25 * (attacker[Weakness] + 1) as real) * 1.05)
  {
    var s1 := StageFor(Strength, attacker[Strength]);
    var s2 := StageFor(Weakness, attacker[Weakness]);
    var s7 := StageFor(Poison, target[Poison]);
    assert Stages(attacker, target) == [s1, s2] + [s7];
    RunAppend(1.0, [s1, s2], [s7]);
    RunPair(1.0, s1, s2);
    RunSingle(Run(1.0, [s1, s2]), s7);
  }

  /** The additive term of an effect: weight·(amplifier + 1) when active, 0 when absent. */
  function TermIfActive(effects: map<EffectKind, int>, kind: EffectKind, weight: real): real {
    if kind in effects then weight * (effects[kind] + 1) as real else 0.0
  }

  /** The scaling of an effect: 1 − weight·(amplifier + 1) when active, 1 when absent. */
  function ScaleIfActive(effects: map<EffectKind, int>, kind: EffectKind, weight: real): real {
    if kind in effects then 1.0 - weight * (effects[kind] + 1) as real else 1.0
  }

  /** A constant factor when the effect is active, 1 when absent. */
  function FactorIfActive(effects: map<EffectKind, int>, kind: EffectKind, factor: real): real {
    if kind in effects then factor else 1.0
  }

  /**
    The attacker's part of the source's expression: strength and weakness
    added, mining fatigue scaling the sum, haste added last.
   */
  function AttackerModifier(attacker: map<EffectKind, int>): real {
    (1.0 + TermIfActive(attacker, Strength, 0.15) - TermIfActive(attacker, Weakness, 0.25))
      * ScaleIfActive(attacker, MiningFatigue, 0.1)
      + TermIfActive(attacker, Haste, 0.05)
  }

  /** The target's part: resistance, wither and poison scale the running modifier. */
  function TargetScaling(target: map<EffectKind, int>): real {
    ScaleIfActive(target, Resistance, 0.15) * FactorIfActive(target, Wither, 1.1) * FactorIfActive(target, Poison, 1.05)
  }

  /**
    For every combination of effects, the as-written running modifier is the
    source's left-to-right expression with each absent effect replaced by its
    identity, 0 for a term and 1 for a factor; the factor floors it at 0.45.
   */
  lemma StatusFactorFormula(attacker: map<EffectKind, int>, target: map<EffectKind, int>)
    ensures Run(1.0, Stages(attacker, target)) == AttackerModifier(attacker) * TargetScaling(target)
    ensures StatusFactorAsWritten(attacker, target) == Max(STATUS_FLOOR, AttackerModifier(attacker) * TargetScaling(target))
  {
    ComposeFormulas(attacker, target, AttackerModifier(attacker), TargetScaling(target));
  }

  /** The two halves composed, with their closed forms held as plain values. */
  lemma ComposeFormulas(attacker: map<EffectKind, int>, target: map<EffectKind, int>, modifier: real, scaling: real)
    requires modifier == AttackerModifier(attacker) && scaling == TargetScaling(target)
    ensures Run(1.0, Stages(attacker, target)) == modifier * scaling
  {
    AttackerFormulaAt(attacker, modifier);
    TargetFormulaAt(target, modifier, scaling);
    RunStagesThen(attacker, target, modifier, modifier * scaling);
  }

  /** AttackerFormula with the closed form held as a plain value. */
  lemma AttackerFormulaAt(attacker: map<EffectKind, int>, modifier: real)
    requires modifier == AttackerModifier(attacker)
    ensures Run(1.0, AttackerStages(attacker)) == modifier
  {
    AttackerFormula(attacker);
  }

  /** TargetFormula with the scaling held as a plain value. */
  lemma TargetFormulaAt(target: map<EffectKind, int>, m: real, scaling: real)
    requires scaling == TargetScaling(target)
    ensures Run(m, TargetStages(target)) == m * scaling
  {
    TargetFormula(m, target);
  }

  /** The attacker's stages run first, then the target's. */
  lemma RunStagesThen(attacker: map<EffectKind, int>, target: map<EffectKind, int>, mid: real, last: real)
    requires Run(1.0, AttackerStages(attacker)) == mid
    requires Run(mid, TargetStages(target)) == last
    ensures Run(1.0, Stages(attacker, target)) == last
  {
    RunAppend(1.0, AttackerStages(attacker), TargetStages(target));
  }

  /** Running two stage lists one after the other, given what each does. */
  lemma RunThen(m: real, first: seq<Stage>, second: seq<Stage>, mid: real, last: real)
    requires Run(m, first) == mid && Run(mid, second) == last
    ensures Run(m, first + second) == last
  {
    RunAppend(m, first, second);
  }

  /** The attacker's four stages, each absent effect contributing its identity. */
  lemma AttackerFormula(attacker: map<EffectKind, int>)
    ensures Run(1.0, AttackerStages(attacker)) == AttackerModifier(attacker)
  {
    var p1, p2, p3, p4 := Part(attacker, Strength), Part(attacker, Weakness), Part(attacker, MiningFatigue), Part(attacker, Haste);
    var m1 := 1.0 + TermIfActive(attacker, Strength, 0.15);
    var m2 := m1 - TermIfActive(attacker, Weakness, 0.25);
    var m3 := m2 * ScaleIfActive(attacker, MiningFatigue, 0.1);
    assert Run(1.0, p1) == m1 by { RunPart(1.0, attacker, Strength); }
    assert Run(m1, p2) == m2 by { RunPart(m1, attacker, Weakness); }
    assert Run(m2, p3) == m3 by { RunPart(m2, attacker, MiningFatigue); }
    assert Run(m3, p4) == AttackerModifier(attacker) by { RunPart(m3, attacker, Haste); }
    RunThen(1.0, p1, p2, m1, m2);
    RunThen(1.0, p1 + p2, p3, m2, m3);
    RunThen(1.0, p1 + p2 + p3, p4, m3, AttackerModifier(attacker));
  }

  /** The target's three stages scale the running modifier by their factors, 1 when absent. */
  lemma TargetFormula(m: real, target: map<EffectKind, int>)
    ensures Run(m, TargetStages(target)) == m * TargetScaling(target)
  {
    var p5, p6, p7 := Part(target, Resistance), Part(target, Wither), Part(target, Poison);
    var m5 := m * ScaleIfActive(target, Resistance, 0.15);
    var m6 := m5 * FactorIfActive(target, Wither, 1.1);
    RunPart(m, target, Resistance);
    RunPart(m5, target, Wither);
    RunPart(m6, target, Poison);
    RunAppend(m, p5, p6);
    RunAppend(m, p5 + p6, p7);
  }

  /** Running the stage of one effect: its step when active, nothing when absent. */
  lemma RunPart(m: real, effects: map<EffectKind, int>, kind: EffectKind)
    ensures Run(m, Part(effects, kind)) == if kind in effects then Step(m, StageFor(kind, effects[kind])) else m
  {
    if kind in effects {
      RunSingle(m, StageFor(kind, effects[kind]));
    }
  }

  lemma RunSingle(m: real, s: Stage)
    ensures Run(m, [s]) == Step(m, s)
  {
    assert [s][1..] == [];
  }

  lemma RunPair(m: real, s: Stage, t: Stage)
    ensures Run(m, [s, t]) == Step(Step(m, s), t)
  {
    assert [s, t][1..] == [t];
    RunSingle(Step(m, s), t);
  }

  lemma RunClampedSingle(m: real, s: Stage)
    ensures RunClamped(m, [s]) == Max(0.0, Step(m, s))
  {
    assert [s][1..] == [];
  }

  lemma RunClampedPair(m: real, s: Stage, t: Stage)
    ensures RunClamped(m, [s, t]) == Max(0.0, Step(Max(0.0, Step(m, s)), t))
  {
    assert [s, t][1..] == [t];
    RunClampedSingle(Max(0.0, Step(m, s)), t);
  }

  // ---------------------------------------------------------------- fold algebra

  lemma {:induction false} RunAppend(m: real, a: seq<Stage>, b: seq<Stage>)
    ensures Run(m, a + b) == Run(Run(m, a), b)
    decreases |a|
  {
    if a == [] {
      assert a + b == b;
    } else {
      assert (a + b)[0] == a[0];
      assert (a + b)[1..] == a[1..] + b;
      RunAppend(Step(m, a[0]), a[1..], b);
    }
  }

  lemma {:induction false} RunClampedAppend(m: real, a: seq<Stage>, b: seq<Stage>)
    ensures RunClamped(m, a + b) == RunClamped(RunClamped(m, a), b)
    decreases |a|
  {
    if a == [] {
      assert a + b == b;
    } else {
      assert (a + b)[0] == a[0];
      assert (a + b)[1..] == a[1..] + b;
      RunClampedAppend(Max(0.0, Step(m, a[0])), a[1..], b);
    }
  }

  /** s1 is the weaker change of the same kind as s2. */
  predicate StageLe(s1: Stage, s2: Stage) {
    || (s1.Add? && s2.Add? && s1.delta <= s2.delta)
    || (s1.Scale? && s2.Scale? && s1.factor <= s2.factor)
  }

  lemma StepClampedMonotone(m1: real, m2: real, s: Stage)
    requires 0.0 <= m1 <= m2
    ensures Max(0.0, Step(m1, s)) <= Max(0.0, Step(m2, s))
  {
    match s
    case Add(d) =>
      MaxMonotone(0.0, m1 + d, m2 + d);
    case Scale(f) =>
      ScaleClampedMonotone(m1, m2, f);
  }

  lemma ScaleClampedMonotone(m1: real, m2: real, f: real)
    requires 0.0 <= m1 <= m2
    ensures Max(0.0, Step(m1, Scale(f))) <= Max(0.0, Step(m2, Scale(f)))
  {
    if f >= 0.0 {
      MulMonotone(f, m1, m2);
      assert m1 * f <= m2 * f;
      MaxMonotone(0.0, m1 * f, m2 * f);
    } else {
      MulNonPositive(m1, f);
      MulNonPositive(m2, f);
      assert Max(0.0, m1 * f) == 0.0 && Max(0.0, m2 * f) == 0.0;
    }
  }

  /** With the floor in place a larger running modifier never ends smaller. */
  lemma {:induction false} RunClampedMonotone(m1: real, m2: real, stages: seq<Stage>)
    requires 0.0 <= m1 <= m2
    ensures RunClamped(m1, stages) <= RunClamped(m2, stages)
    decreases |stages|
  {
    if stages != [] {
      StepClampedMonotone(m1, m2, stages[0]);
      RunClampedMonotone(Max(0.0, Step(m1, stages[0])), Max(0.0, Step(m2, stages[0])), stages[1..]);
    }
  }

  lemma StepStageMonotone(m: real, s1: Stage, s2: Stage)
    requires m >= 0.0
    requires StageLe(s1, s2)
    ensures Max(0.0, Step(m, s1)) <= Max(0.0, Step(m, s2))
  {
    match s1
    case Scale(f1) =>
      assert s2 == Scale(s2.factor);
      ScaleStepMonotone(m, f1, s2.factor);
    case Add(d1) =>
      MaxMonotone(0.0, m + d1, m + s2.delta);
  }

  lemma ScaleStepMonotone(m: real, f1: real, f2: real)
    requires m >= 0.0 && f1 <= f2
    ensures Max(0.0, Step(m, Scale(f1))) <= Max(0.0, Step(m, Scale(f2)))
  {
    MulMonotone(m, f1, f2);
    MaxMonotone(0.0, m * f1, m * f2);
  }

  /** Weakening one stage in the middle of the list never raises the clamped result. */
  lemma ReplaceStage(m: real, pre: seq<Stage>, s1: Stage, s2: Stage, post: seq<Stage>)
    requires m >= 0.0
    requires StageLe(s1, s2)
    ensures RunClamped(m, pre + [s1] + post) <= RunClamped(m, pre + [s2] + post)
  {
    var x := RunClamped(m, pre);
    RunClampedAppend(m, pre + [s1], post);
    RunClampedAppend(m, pre, [s1]);
    RunClampedAppend(m, pre + [s2], post);
    RunClampedAppend(m, pre, [s2]);
    assert RunClamped(x, [s1]) == Max(0.0, Step(x, s1));
    assert RunClamped(x, [s2]) == Max(0.0, Step(x, s2));
    StepStageMonotone(x, s1, s2);
    RunClampedMonotone(RunClamped(x, [s1]), RunClamped(x, [s2]), post);
  }

  /** The identity change of each kind. */
  function Neutral(s: Stage): Stage {
    match s
    case Add(_) => Add(0.0)
    case Scale(_) => Scale(1.0)
  }

  /** Inserting an identity change is a no-op once the modifier is non-negative. */
  lemma DropNeutral(m: real, pre: seq<Stage>, s: Stage, post: seq<Stage>)
    requires m >= 0.0
    ensures RunClamped(m, pre + [Neutral(s)] + post) == RunClamped(m, pre + post)
  {
    var x := RunClamped(m, pre);
    RunClampedAppend(m, pre + [Neutral(s)], post);
    RunClampedAppend(m, pre, [Neutral(s)]);
    RunClampedAppend(m, pre, post);
    assert RunClamped(x, [Neutral(s)]) == Max(0.0, Step(x, Neutral(s)));
  }

  /** A stage no stronger than the identity never raises the clamped result. */
  lemma PenaltyNeverRaises(pre: seq<Stage>, s: Stage, post: seq<Stage>)
    requires StageLe(s, Neutral(s))
    ensures RunClamped(1.0, pre + [s] + post) <= RunClamped(1.0, pre + post)
  {
    ReplaceStage(1.0, pre, s, Neutral(s), post);
    DropNeutral(1.0, pre, s, post);
  }

  // ---------------------------------------------------------------- penalties

  lemma Assoc(a: seq<Stage>, b: seq<Stage>, c: seq<Stage>)
    ensures a + b + c == a + (b + c)
  {
  }

  lemma DropEmpty(a: seq<Stage>, b: seq<Stage>)
    ensures a + [] + b == a + b
  {
  }

  /** The attacker stages before a penalty effect: strength, then weakness for mining fatigue. */
  function PenaltyBefore(attacker: map<EffectKind, int>, kind: EffectKind): seq<Stage> {
    if kind == Weakness then Part(attacker, Strength)
    else Part(attacker, Strength) + Part(attacker, Weakness)
  }

  /** The stages after a penalty effect of the attacker. */
  function PenaltyAfter(attacker: map<EffectKind, int>, target: map<EffectKind, int>, kind: EffectKind): seq<Stage> {
    if kind == Weakness then Part(attacker, MiningFatigue) + Part(attacker, Haste) + TargetStages(target)
    else Part(attacker, Haste) + TargetStages(target)
  }

  /** The stage list split around the attacker's weakness or mining fatigue. */
  lemma PenaltySplit(attacker: map<EffectKind, int>, target: map<EffectKind, int>, kind: EffectKind)
    requires kind == Weakness || kind == MiningFatigue
    ensures Stages(attacker, target)
      == PenaltyBefore(attacker, kind) + Part(attacker, kind) + PenaltyAfter(attacker, target, kind)
  {
    var p1, p2, p3, p4 := Part(attacker, Strength), Part(attacker, Weakness), Part(attacker, MiningFatigue), Part(attacker, Haste);
    var t := TargetStages(target);
    assert Stages(attacker, target) == p1 + p2 + p3 + p4 + t;
    if kind == Weakness {
      Assoc(p1 + p2 + p3, p4, t);
      Assoc(p1 + p2, p3, p4 + t);
      Assoc(p3, p4, t);
    } else {
      Assoc(p1 + p2 + p3, p4, t);
    }
  }

  /** Changing or removing one penalty effect leaves the stages of the others alone. */
  lemma PenaltyOthersUnchanged(attacker: map<EffectKind, int>, target: map<EffectKind, int>,
                               kind: EffectKind, amp: int)
    requires kind == Weakness || kind == MiningFatigue
    ensures PenaltyBefore(attacker[kind := amp], kind) == PenaltyBefore(attacker, kind)
    ensures PenaltyAfter(attacker[kind := amp], target, kind) == PenaltyAfter(attacker, target, kind)
    ensures PenaltyBefore(attacker - {kind}, kind) == PenaltyBefore(attacker, kind)
    ensures PenaltyAfter(attacker - {kind}, target, kind) == PenaltyAfter(attacker, target, kind)
  {
    var a, b := attacker[kind := amp], attacker - {kind};
    assert Part(a, Strength) == Part(attacker, Strength) == Part(b, Strength);
    assert Part(a, Haste) == Part(attacker, Haste) == Part(b, Haste);
    if kind == Weakness {
      assert Part(a, MiningFatigue) == Part(attacker, MiningFatigue) == Part(b, MiningFatigue);
    } else {
      assert Part(a, Weakness) == Part(attacker, Weakness) == Part(b, Weakness);
    }
  }

  /** The stage list with a penalty effect set to a given amplifier. */
  lemma PenaltyStages(attacker: map<EffectKind, int>, target: map<EffectKind, int>, kind: EffectKind, amp: int)
    requires kind == Weakness || kind == MiningFatigue
    ensures Stages(attacker[kind := amp], target)
      == PenaltyBefore(attacker, kind) + [StageFor(kind, amp)] + PenaltyAfter(attacker, target, kind)
  {
    PenaltyOthersUnchanged(attacker, target, kind, amp);
    PenaltySplit(attacker[kind := amp], target, kind);
  }

  /** The stage list with a penalty effect removed. */
  lemma PenaltyStagesRemoved(attacker: map<EffectKind, int>, target: map<EffectKind, int>, kind: EffectKind)
    requires kind == Weakness || kind == MiningFatigue
    ensures Stages(attacker - {kind}, target)
      == PenaltyBefore(attacker, kind) + PenaltyAfter(attacker, target, kind)
  {
    PenaltyOthersUnchanged(attacker, target, kind, 0);
    PenaltySplit(attacker - {kind}, target, kind);
    assert Part(attacker - {kind}, kind) == [];
    DropEmpty(PenaltyBefore(attacker, kind), PenaltyAfter(attacker, target, kind));
  }

  /** Weakness or mining fatigue never raises the factor, and a higher amplifier never does either. */
  lemma AttackerPenaltyNeverRaises(attacker: map<EffectKind, int>, target: map<EffectKind, int>,
                                   kind: EffectKind, lo: int, hi: int)
    requires kind == Weakness || kind == MiningFatigue
    requires -1 <= lo <= hi
    ensures StatusFactor(attacker[kind := hi], target) <= StatusFactor(attacker[kind := lo], target)
    ensures StatusFactor(attacker[kind := lo], target) <= StatusFactor(attacker - {kind}, target)
  {
    var pre := PenaltyBefore(attacker, kind);
    var post := PenaltyAfter(attacker, target, kind);
    var sh, sl := StageFor(kind, hi), StageFor(kind, lo);
    PenaltyStages(attacker, target, kind, hi);
    PenaltyStages(attacker, target, kind, lo);
    PenaltyStagesRemoved(attacker, target, kind);
    assert StageLe(sh, sl);
    assert StageLe(sl, Neutral(sl));
    ReplaceStage(1.0, pre, sh, sl, post);
    PenaltyNeverRaises(pre, sl, post);
  }

  /** The target's resistance never raises the factor, and a higher amplifier never does either. */
  lemma ResistanceNeverRaisesFactor(attacker: map<EffectKind, int>, target: map<EffectKind, int>, lo: int, hi: int)
    requires -1 <= lo <= hi
    ensures StatusFactor(attacker, target[Resistance := hi]) <= StatusFactor(attacker, target[Resistance := lo])
    ensures StatusFactor(attacker, target[Resistance := lo]) <= StatusFactor(attacker, target - {Resistance})
  {
    var pre := AttackerStages(attacker);
    var post := Part(target, Wither) + Part(target, Poison);
    var th, tl, tn := target[Resistance := hi], target[Resistance := lo], target - {Resistance};
    assert Part(th, Wither) == Part(tl, Wither) == Part(tn, Wither) == Part(target, Wither);
    assert Part(th, Poison) == Part(tl, Poison) == Part(tn, Poison) == Part(target, Poison);
    var xh, xl := [StageFor(Resistance, hi)], [StageFor(Resistance, lo)];
    assert TargetStages(th) == xh + Part(target, Wither) + Part(target, Poison);
    assert TargetStages(tl) == xl + Part(target, Wither) + Part(target, Poison);
    assert TargetStages(tn) == post;
    Assoc(xh, Part(target, Wither), Part(target, Poison));
    Assoc(xl, Part(target, Wither), Part(target, Poison));
    Assoc(pre, xh, post);
    Assoc(pre, xl, post);
    ReplaceStage(1.0, pre, StageFor(Resistance, hi), StageFor(Resistance, lo), post);
    PenaltyNeverRaises(pre, StageFor(Resistance, lo), post);
  }

  /** As written, a weakened attacker (amplifier 4) hitting a target with resistance 255 gets 9.35 instead of 0.45. */
  lemma ResistanceRaisesFactorAsWritten()
    ensures StatusFactorAsWritten(map[Weakness := 4], map[]) == 0.45
    ensures StatusFactorAsWritten(map[Weakness := 4], map[Resistance := 255]) == 9.35
    ensures StatusFactor(map[Weakness := 4], map[Resistance := 255]) == 0.45
  {
    var a: map<EffectKind, int> := map[Weakness := 4];
    var t: map<EffectKind, int> := map[Resistance := 255];
    assert Stages(a, map[]) == [Add(-1.25)];
    assert Stages(a, t) == [Add(-1.25), Scale(1.0 - 0.15 * 256.0)];
  }

  /**
    The floor is broader than the sign flip it prevents: weakness 4 then
    haste 255 gives 12.55 as written, but 12.8 once the running modifier
    is held at 0 after the weakness step.
   */
  lemma FloorChangesWeaknessThenHaste()
    ensures StatusFactorAsWritten(map[Weakness := 4, Haste := 255], map[]) == 12.55
    ensures StatusFactor(map[Weakness := 4, Haste := 255], map[]) == 12.8
  {
    var a: map<EffectKind, int> := map[Weakness := 4, Haste := 255];
    assert Stages(a, map[]) == [Add(-1.25), Add(12.8)];
  }

  // ---------------------------------------------------------------- agreement

  /** A change that keeps a non-negative modifier non-negative. */
  predicate Safe(s: Stage) {
    match s
    case Add(d) => d >= 0.0
    case Scale(f) => f >= 0.0
  }

  predicate AllSafe(stages: seq<Stage>) {
    forall i :: 0 <= i < |stages| ==> Safe(stages[i])
  }

  lemma {:induction false} SafeRunsAgree(m: real, stages: seq<Stage>)
    requires m >= 0.0
    requires AllSafe(stages)
    ensures Run(m, stages) == RunClamped(m, stages)
    decreases |stages|
  {
    if stages != [] {
      assert Safe(stages[0]);
      var n := Step(m, stages[0]);
      assert n >= 0.0 by {
        if stages[0].Scale? {
          MulMonotone(m, 0.0, stages[0].factor);
        }
      }
      assert AllSafe(stages[1..]) by {
        forall i | 0 <= i < |stages[1..]|
          ensures Safe(stages[1..][i])
        {
          assert stages[1..][i] == stages[i + 1];
        }
      }
      SafeRunsAgree(n, stages[1..]);
    }
  }

  /** Amplifiers the game itself hands out: there the floor after each stage never acts. */
  predicate OrdinaryAmplifiers(attacker: map<EffectKind, int>, target: map<EffectKind, int>) {
    && (Strength in attacker ==> attacker[Strength] >= 0)
    && (Weakness in attacker ==> attacker[Weakness] <= 3)
    && (MiningFatigue in attacker ==> attacker[MiningFatigue] <= 9)
    && (Haste in attacker ==> attacker[Haste] >= 0)
    && (Resistance in target ==> target[Resistance] <= 5)
  }

  lemma AllSafeAppend(a: seq<Stage>, b: seq<Stage>)
    requires AllSafe(a) && AllSafe(b)
    ensures AllSafe(a + b)
  {
    forall i | 0 <= i < |a + b|
      ensures Safe((a + b)[i])
    {
      if i < |a| {
        assert (a + b)[i] == a[i];
      } else {
        assert (a + b)[i] == b[i - |a|];
      }
    }
  }

  /** Strength and weakness with ordinary amplifiers leave the modifier non-negative, so the floor does not act. */
  lemma HeadAgrees(attacker: map<EffectKind, int>)
    requires Strength in attacker ==> attacker[Strength] >= 0
    requires Weakness in attacker ==> attacker[Weakness] <= 3
    ensures Run(1.0, Part(attacker, Strength) + Part(attacker, Weakness)) >= 0.0
    ensures RunClamped(1.0, Part(attacker, Strength) + Part(attacker, Weakness))
         == Run(1.0, Part(attacker, Strength) + Part(attacker, Weakness))
  {
    var head := Part(attacker, Strength) + Part(attacker, Weakness);
    if Strength in attacker && Weakness in attacker {
      var s1, s2 := StageFor(Strength, attacker[Strength]), StageFor(Weakness, attacker[Weakness]);
      assert head == [s1, s2];
      RunPair(1.0, s1, s2);
      RunClampedPair(1.0, s1, s2);
    } else if Strength in attacker {
      var s1 := StageFor(Strength, attacker[Strength]);
      assert head == [s1];
      RunSingle(1.0, s1);
      RunClampedSingle(1.0, s1);
    } else if Weakness in attacker {
      var s2 := StageFor(Weakness, attacker[Weakness]);
      assert head == [s2];
      RunSingle(1.0, s2);
      RunClampedSingle(1.0, s2);
    } else {
      assert head == [];
    }
  }

  /** The stages after weakness are all safe for ordinary amplifiers. */
  lemma TailSafe(attacker: map<EffectKind, int>, target: map<EffectKind, int>)
    requires OrdinaryAmplifiers(attacker, target)
    ensures AllSafe(Part(attacker, MiningFatigue) + Part(attacker, Haste) + TargetStages(target))
  {
    var p3, p4 := Part(attacker, MiningFatigue), Part(attacker, Haste);
    var p5, p6, p7 := Part(target, Resistance), Part(target, Wither), Part(target, Poison);
    assert AllSafe(p3) && AllSafe(p4) && AllSafe(p5) && AllSafe(p6) && AllSafe(p7);
    AllSafeAppend(p3, p4);
    AllSafeAppend(p5, p6);
    AllSafeAppend(p5 + p6, p7);
    AllSafeAppend(p3 + p4, p5 + p6 + p7);
  }

  /** For ordinary amplifiers the corrected factor is exactly the source's factor. */
  lemma StatusFactorsAgree(attacker: map<EffectKind, int>, target: map<EffectKind, int>)
    requires OrdinaryAmplifiers(attacker, target)
    ensures StatusFactor(attacker, target) == StatusFactorAsWritten(attacker, target)
  {
    var head := Part(attacker, Strength) + Part(attacker, Weakness);
    var tail := Part(attacker, MiningFatigue) + Part(attacker, Haste) + TargetStages(target);
    assert Stages(attacker, target) == head + tail by {
      Assoc(head + Part(attacker, MiningFatigue), Part(attacker, Haste), TargetStages(target));
      Assoc(head, Part(attacker, MiningFatigue), Part(attacker, Haste) + TargetStages(target));
      Assoc(Part(attacker, MiningFatigue), Part(attacker, Haste), TargetStages(target));
    }
    RunAppend(1.0, head, tail);
    RunClampedAppend(1.0, head, tail);
    HeadAgrees(attacker);
    TailSafe(attacker, target);
    SafeRunsAgree(Run(1.0, head), tail);
  }
}

=== FILE: text.dfy ===
/** Substring search on entity type names (String.contains). */
module Text {

  /** p occurs in s starting at index i. */
  predicate OccursAt(s: string, p: string, i: nat) {
    i + |p| <= |s| && s[i..i + |p|] == p
  }

  /** String.contains: compare p with each window of s from left to right. */
  function Contains(s: string, p: string): bool
    decreases |s|
  {
    if |p| > |s| then false
    else if s[..|p|] == p then true
    else Contains(s[1..], p)
  }

  /** The left-to-right search finds p exactly when p occurs somewhere in s. */
  lemma {:induction false} ContainsIffOccurs(s: string, p: string)
    ensures Contains(s, p) <==> exists i: nat :: OccursAt(s, p, i)
    decreases |s|
  {
    if |p| > |s| {
    } else if s[..|p|] == p {
      assert OccursAt(s, p, 0);
    } else {
      ContainsIffOccurs(s[1..], p);
      if Contains(s[1..], p) {
        var i: nat :| OccursAt(s[1..], p, i);
        assert s[1..][i..i + |p|] == s[i + 1..i + 1 + |p|];
        assert OccursAt(s, p, i + 1);
      }
      if exists i: nat :: OccursAt(s, p, i) {
        var i: nat :| OccursAt(s, p, i);
        assert i != 0;
        assert s[1..][i - 1..i - 1 + |p|] == s[i..i + |p|];
        assert OccursAt(s[1..], p, i - 1);
      }
    }
  }

  /** A witness position is enough to conclude Contains. */
  lemma ContainsAt(s: string, p: string, i: nat)
    requires OccursAt(s, p, i)
    ensures Contains(s, p)
  {
    ContainsIffOccurs(s, p);
  }
}
